=== FILE: README.md ===
# grpc-ecommerce order service, modelled in Dafny

This project models the core of a small gRPC delivery-order service written
in Go. Users log in and receive a JWT. With it they create delivery orders,
list their orders page by page and cancel pending orders. Orders live in
PostgreSQL. Pages of an owner's orders are cached in Redis and invalidated by
key prefix.

The model follows the code as written, including where it does not do what
its comments intend. Lemmas state those places as facts about the model:

- the cache read at `order_service.go:96` is guarded by `err != nil`, so a
  listing is never served from Redis (`OrderService.RedisNeverServesFromCache`);
- cancellation invalidates under `fmt.Sprint("orders:user:%d", id)`, a prefix
  that matches no listing key (`OrderService.CancelPrefixMissesListings`,
  `OrderService.CancelKeepsCachedPages`);
- the creation prefix `orders:user:1` also removes user 12's pages
  (`OrderService.OwnerPrefixOverreaches`);
- passwords are compared in plaintext (`AuthService.StoredValueIsCredential`,
  `AuthService.LoginRejectsHashedPassword`);
- logout revokes nothing (`Gateway.LogoutRevokesNothing`);
- the login response advertises `ExpiresIn: 432000` (five days), while the
  token expires after 24 hours (`Gateway.ExpiresInMismatch`);
- the last page is computed from the raw request limit, not the normalised
  one (`Gateway.RawLimitLastPage`);
- the row loop of the listing query never checks `rows.Err()`, so a page
  cut short by a failed iteration is returned, and cached, as a complete
  success (`Repository.StoppedRowsLookComplete`,
  `OrderService.TruncatedPageCached`);
- a token that expires between the interceptor's check and the handler's is
  admitted and then refused (`Gateway.ExpiryBetweenChecks`);
- consignment ids repeat every 1000 nanoseconds within a day
  (`OrderService.ConsignmentIdsCollide`). The primary key then rejects the
  second order (`OrderService.CollidingCreateRejected`).

Modules and files:

| file | module | models |
|---|---|---|
| wrappers.dfy | `Wrappers` | Go's `(value, error)` returns as `Option`, `Result`, `Outcome` |
| text.dfy | `Text` | `%d` formatting, prefix tests, `strings.TrimPrefix` |
| domain.dfy | `Domain` | `User`, `Order`, a page of orders, page-size normalisation |
| codec.dfy | `Codec` | JSON encoding of cached pages, kept abstract |
| redis.dfy | `Redis` | the cache adapter as a map: `Get`, `Set`, `DeleteByPrefix` |
| repository.dfy | `Repository` | the PostgreSQL repository over two tables, with their constraints |
| orders.dfy | `OrderService` | order creation, cache-aside listing, cancellation |
| jwt.dfy | `Jwt` | token claims and lifetime |
| auth.dfy | `AuthService` | login and logout |
| gateway.dfy | `Gateway` | the auth interceptor, user-id extraction, handler responses |

Everything the code reads from its environment is an explicit argument:

- the clock readings;
- each failure the database, the cache or token signing may report;
- the order in which Redis `SCAN` enumerates keys;
- the token validator.

Every stated property therefore holds for every such environment.

## Model

| member | source | states |
|---|---|---|
| `Text.DecimalRoundTrip` | internal/application/order_service.go:63 | a number written with `%d` parses back to the same number |
| `Text.DecimalInjective` | internal/application/order_service.go:94 | distinct numbers have distinct `%d` renderings |
| `Text.TrimPrefix` | internal/adapters/grpc/server.go:211 | the prefix is removed exactly when the string starts with it, and the string is otherwise returned unchanged |
| `Domain.NormaliseLimit` | internal/application/order_service.go:85-87 | the page size is at least 1, a size of at least 1 is kept as given, and a smaller one becomes the default 10 |
| `Domain.NormalisePage` | internal/application/order_service.go:88-90 | the page number is at least 1, a number of at least 1 is kept as given, and a smaller one becomes page 1 |
| `Domain.NormaliseIdempotent` | internal/adapters/repository/postgres.go:53-58 | the repository's second normalisation changes nothing; limit below 1 means 10 and page below 1 means 1 |
| `Codec.Marshal` | internal/adapters/redis/redis.go:32-35 | encoding fails exactly on unencodable values, and what it produces decodes back to the value |
| `Codec.Unmarshal` | internal/application/order_service.go:103-106 | decoding succeeds exactly on the JSON of a page and yields the page it encodes |
| `Codec.DecodeOnlyEncoded` | internal/application/order_service.go:103-106 | a blob decodes exactly when some page encodes to it, blobs standing for byte strings by how the decoder reads them; the empty reply does not decode |
| `Redis.Get` | internal/adapters/redis/redis.go:27-29 | a read succeeds exactly when the call does not fail and the key is present, returns the stored bytes, and returns no bytes with every error (`redis: nil` for a missing key) |
| `Redis.Set` | internal/adapters/redis/redis.go:31-37 | the write succeeds exactly when the value encodes and the call does not fail; a failure writes nothing; a success adds only the key |
| `Redis.SetThenGet` | internal/adapters/redis/redis.go:27-37 | after a successful write, reading the key returns bytes that decode to the value written |
| `Redis.DeleteFrom` | internal/adapters/redis/redis.go:40-46 | the delete loop only removes keys that start with the prefix and were enumerated, never alters a value, and on success has removed every enumerated matching key; with no failing delete, the iterator's error is returned |
| `Redis.DeleteByPrefix` | internal/adapters/redis/redis.go:39-47 | no key outside the prefix is removed and no value altered; on success every enumerated key under the prefix is gone; when no delete fails, an error the `SCAN` iterator ends with is returned |
| `Redis.DeleteByPrefixExact` | internal/adapters/redis/redis.go:39-47 | an error-free scan of the whole keyspace leaves exactly the keys not starting with the prefix |
| `Redis.DeleteStopsAtFailure` | internal/adapters/redis/redis.go:41-45 | the first failing delete ends the walk with its error, having removed exactly the matching keys enumerated before it |
| `Repository.FirstNamed` | internal/adapters/repository/postgres.go:24-27 | the lookup finds nothing exactly when no row has the name, and otherwise a row with that name |
| `Repository.FindUserByUsername` | internal/adapters/repository/postgres.go:22-32 | a query failure is returned as the error; no matching row gives no user and no error; a found user is a row with that name |
| `Repository.FindUserUnique` | cmd/server/main.go:85-89 | with usernames unique, the user found is the one row carrying the name |
| `Repository.CreateOrder` | internal/adapters/repository/postgres.go:34-50 | the insert succeeds exactly when the database does not fail, the id is new and the owner exists; it appends the order; a duplicate id gives the primary-key error, an unknown owner the foreign-key error |
| `Repository.CreateOrderKeepsValid` | cmd/server/main.go:85-122 | inserting keeps user ids, usernames and consignment ids unique |
| `Repository.OwnedBy` | internal/adapters/repository/postgres.go:71 | the selected rows are exactly the orders whose owner is the user |
| `Repository.CountOwned` | internal/adapters/repository/postgres.go:62 | the count is at most the number of rows and is zero exactly when no order belongs to the user |
| `Repository.CountMatchesRows` | internal/adapters/repository/postgres.go:61-71 | the `COUNT(*)` total equals the number of rows the `WHERE user_id` query selects |
| `Repository.InsertByAgeSorted` | internal/adapters/repository/postgres.go:71 | inserting an order into a newest-first list keeps it newest first and adds exactly that order |
| `Repository.SortNewestFirstCorrect` | internal/adapters/repository/postgres.go:71 | `ORDER BY created_at DESC` yields a newest-first permutation of the rows |
| `Repository.Window` | internal/adapters/repository/postgres.go:71-73 | `LIMIT n OFFSET k` returns the rows from position k on, at most n of them, in order, and keeps newest-first order |
| `Repository.Arranged` | internal/adapters/repository/postgres.go:71 | a newest-first permutation of the user's orders: every order of the user is listed, as often as it is stored, and nothing else |
| `Repository.NewestFirstUnique` | internal/adapters/repository/postgres.go:71 | two newest-first arrangements of the same orders coincide when no two orders share a timestamp |
| `Repository.ArrangementForced` | internal/adapters/repository/postgres.go:71 | with distinct timestamps, every newest-first ordering of the user's rows the database may return is the model's arrangement |
| `Repository.ListOrders` | internal/adapters/repository/postgres.go:52-94 | a count, select or scan failure is the error, and only that fails; otherwise the total is the user's order count, and the page holds at most a normalised limit of the user's orders, newest first |
| `Repository.ListingIsSlice` | internal/adapters/repository/postgres.go:59-73 | the page is the slice of the user's sorted orders starting at offset (page-1)·limit |
| `Repository.CompletePage` | internal/adapters/repository/postgres.go:59-93 | a read that goes through returns the `LIMIT`/`OFFSET` window of the user's newest-first orders at offset (page-1)·limit, with the user's count as total |
| `Repository.StoppedRowsLookComplete` | internal/adapters/repository/postgres.go:79-93 | an iteration that stops early still succeeds, with the full total and a prefix of the complete page cut to the rows read |
| `Repository.EveryOrderOnItsPage` | internal/adapters/repository/postgres.go:59 | the i-th order of a user appears on page i div limit + 1, at position i mod limit |
| `Repository.CancelOrder` | internal/adapters/repository/postgres.go:96-106 | the update succeeds exactly when the database does not fail and the user owns a pending order with that id; it marks those orders cancelled and changes no other row; zero rows affected gives the not-found error |
| `Repository.CancelTwiceFails` | internal/adapters/repository/postgres.go:97-104 | cancelling the same order again fails with the not-found error |
| `Repository.CancelOrderKeepsValid` | internal/adapters/repository/postgres.go:97 | cancelling keeps the table constraints |
| `OrderService.PatternRunSpec` | internal/application/order_service.go:30 | the anchored pattern accepts a string exactly when it has the remaining length and each character is accepted at its position |
| `OrderService.PhoneMatchesIff` | internal/application/order_service.go:30-33 | the phone pattern accepts exactly the 11-character numbers `01`, operator digit 3 to 9, eight digits |
| `OrderService.PhoneExamples` | internal/application/order_service_test.go:53-97 | `01712345678` is accepted; `123` and three near misses are rejected |
| `OrderService.MissingRequired` | internal/application/order_service.go:27-29 | an accepted request has a non-empty name, phone and address and a non-zero quantity, weight and amount; negative quantity, weight and amount are accepted. So the default address of lines 34-36 is never applied |
| `OrderService.DeliveryFee` | internal/application/order_service.go:38-48 | up to 0.5 kg the base fee of the city (60 at home, 100 elsewhere); over 0.5 kg up to 1 kg 70 everywhere; above 1 kg the base fee plus 10 plus 15 per kg over 1; never below 60 |
| `OrderService.MiddleBandIgnoresCity` | internal/application/order_service.go:43-44 | in the 0.5 to 1 kg band the fee is 70 in every city |
| `OrderService.HomeFeeMonotone` | internal/application/order_service.go:38-48 | in the home city a heavier parcel never costs less |
| `OrderService.OtherCityFeeNotMonotone` | internal/application/order_service.go:38-48 | outside the home city 0.5 kg costs 100, 0.6 kg costs 70 and 1.1 kg costs 111.5 |
| `OrderService.FeeBoundaries` | internal/application/order_service.go:43-47 | at the band edges: exactly 0.5 kg pays the base fee, just above 0.5 kg and exactly 1 kg pay 70, and just above 1 kg and 1.5 kg at home pay 70.0000015 and 77.5 |
| `OrderService.GoRem` | internal/application/order_service.go:63 | Go's `%` leaves a remainder smaller than the divisor in size, with the sign of the dividend, differing from it by a multiple of the divisor |
| `OrderService.ConsignmentId` | internal/application/order_service.go:63 | the id is `DA`, the six-digit date, `BNWWN`, then a number that parses back to the nanosecond clock's remainder mod 1000 |
| `OrderService.ConsignmentSuffixBelow1000` | internal/application/order_service.go:63 | after 1970 the numeric suffix is below 1000 and the id has at most 16 characters |
| `OrderService.ConsignmentIdsCollide` | internal/application/order_service.go:63 | two creations on the same day 1000 ns apart get the same id |
| `OrderService.Stamp` | internal/application/order_service.go:34-66 | the fee, COD fee, total, store metadata, zero discounts, id, timestamp, pending status and owner are set as derived, and the client's fields are kept |
| `OrderService.OwnerPrefixNamesUser` | internal/application/order_service.go:75 | what follows `orders:user:` in the creation prefix parses back to the user id |
| `OrderService.ListingKeyDelimitsOwner` | internal/application/order_service.go:94 | in a page key the owner's creation prefix is followed by a colon |
| `OrderService.CancelPrefix` | internal/application/order_service.go:140 | the cancellation prefix is `orders:user:`, the literal `%d`, then the user id, which parses back |
| `OrderService.OwnerPrefixCoversListings` | internal/application/order_service.go:75 | the creation prefix is a prefix of every cached page key of the owner |
| `OrderService.OwnerPrefixOverreaches` | internal/application/order_service.go:75 | the creation prefix of user u also covers the page keys of user 10u+d |
| `OrderService.CancelPrefixMissesListings` | internal/application/order_service.go:140 | the cancellation prefix is a prefix of no page key of any user |
| `OrderService.ListingKeyInjective` | internal/application/order_service.go:94 | distinct (user, page, limit) triples have distinct cache keys |
| `OrderService.CreateOrder` | internal/application/order_service.go:26-82 | missing fields, then a bad phone, then the insert error reject creation without changing the state; a success returns the stamped order, appends it, and deletes the owner's prefix from the cache |
| `OrderService.CreateIgnoresCacheFaults` | internal/application/order_service.go:73-79 | the creation's result depends neither on the cache contents nor on how invalidation fares |
| `OrderService.CreateDropsOwnerPages` | internal/application/order_service.go:73-79 | after an error-free invalidation no page of the owner is cached and exactly the keys outside the owner's prefix remain |
| `OrderService.ServedFromCache` | internal/application/order_service.go:93-108 | a cached page is used only when the read reports an error and its bytes decode |
| `OrderService.RedisNeverServesFromCache` | internal/application/order_service.go:96-106 | with the Redis adapter no listing is ever served from the cache |
| `OrderService.HealthyHitDiscarded` | internal/application/order_service.go:96 | a successful read of a valid cached page is ignored |
| `OrderService.ListOrders` | internal/application/order_service.go:84-130 | the result is the repository's listing for the normalised limit and page, however its reads fare; the store is unchanged; a successful listing is written under its key, and an error writes nothing |
| `OrderService.ListCachesPage` | internal/application/order_service.go:115-126 | after a successful listing, reading its key returns bytes that decode to the listing returned |
| `OrderService.TruncatedPageCached` | internal/application/order_service.go:110-126 | a listing whose row iteration stops early is a success, shorter than the full page but with the full total, and that short page is what is cached |
| `OrderService.CancelOrder` | internal/application/order_service.go:132-146 | the outcome and store are the repository's; a failure changes nothing; a success deletes under the cancellation prefix |
| `OrderService.CancelKeepsCachedPages` | internal/application/order_service.go:138-144 | cancellation leaves every cached page of every user in place with its value |
| `OrderService.ForeignCancelIndistinguishable` | internal/application/order_service.go:132-136 | cancelling another user's order fails exactly like cancelling an id that does not exist |
| `OrderService.CreateThenListCounts` | internal/application/order_service.go:110-113 | a listing after a successful creation counts one more order for the owner |
| `OrderService.CollidingCreateRejected` | internal/application/order_service.go:63-71 | a second creation with a colliding id gets the primary-key error and changes nothing |
| `Jwt.GenerateToken` | pkg/auth/jwt.go:18-29 | signing fails only with its own error; the token names the user and id, and is live when issued but not 24 hours later |
| `Jwt.TokenLivesOneDay` | pkg/auth/jwt.go:23 | a new token is accepted at exactly the instants before 24 hours have passed |
| `AuthService.Login` | internal/application/auth_service.go:20-33 | a lookup error is returned; no user with a matching password gives `invalid credentials`; success needs a row with that name and exactly that password; the token binds the name and the user's id; when the first row of that name has the password, a signing error is returned as is |
| `AuthService.Logout` | internal/application/auth_service.go:35-37 | logout always succeeds |
| `AuthService.LoginIndistinguishable` | internal/application/auth_service.go:25-27 | an unknown username and a wrong password give the same error |
| `AuthService.StoredValueIsCredential` | internal/application/auth_service.go:25 | presenting the stored password value, whatever it is, logs in as that user |
| `AuthService.LoginRejectsHashedPassword` | internal/application/auth_service.go:25 | a user whose stored password is a bcrypt hash cannot log in with a plaintext password |
| `Gateway.PresentedToken` | internal/adapters/grpc/server.go:211 | the validated token is the first authorization value with a leading `Bearer ` removed exactly when it is present |
| `Gateway.UserIdFromContext` | internal/adapters/grpc/server.go:220-235 | no metadata, no authorization value, or the validator's error, each reported as such; otherwise the user id of the token's claims |
| `Gateway.ParseAt` | pkg/auth/jwt.go:31-39 | a token validates at an instant exactly when it was issued and the instant is before its expiry, and yields its claims |
| `Gateway.Intercept` | internal/adapters/grpc/server.go:199-218 | only login and signup pass unchecked; any other call is admitted exactly when the handler's user-id extraction succeeds, with the same id; no metadata is rejected `missing metadata`, no authorization value `missing authorization`, and a token that fails validation `invalid token` |
| `Gateway.BearerOptional` | internal/adapters/grpc/server.go:229 | a token sent with or without `Bearer ` identifies the same user |
| `Gateway.FirstAuthorizationOnly` | internal/adapters/grpc/server.go:225-229 | authorization values after the first are ignored |
| `Gateway.Ceil` | internal/adapters/grpc/server.go:157 | the ceiling is the least integer not below its argument |
| `Gateway.LastPage` | internal/adapters/grpc/server.go:157 | no last page for a zero limit; otherwise the least integer not below total / limit |
| `Gateway.LastPageHoldsLastOrder` | internal/adapters/grpc/server.go:157 | for a positive limit the last page is the page of the last order, and 0 when there are no orders |
| `Gateway.RawLimitLastPage` | internal/adapters/grpc/server.go:157-168 | a limit of -1 lists pages of ten yet reports last page -25 for 25 orders; a limit of 0 divides by zero |
| `Gateway.HandleSignup` | internal/adapters/grpc/server.go:37-47 | code 200 exactly when signup succeeds, otherwise 400 with its error |
| `Gateway.HandleLogin` | internal/adapters/grpc/server.go:49-67 | every login failure is 400 `Invalid credentials`; a failure of the second token generation is 500; success is 200 with a `Bearer` token for the user, advertised to expire in 432000 s |
| `Gateway.FromRequest` | internal/adapters/grpc/server.go:75-91 | the request's fields are copied into the order, and reading them back gives the request |
| `Gateway.HandleCreate` | internal/adapters/grpc/server.go:69-108 | no user id gives `Unauthenticated`; a service error gives 422 with its text; success gives 200 with the created order's receipt |
| `Gateway.CreateReportsStampedOrder` | internal/adapters/grpc/server.go:97-107 | a successful creation reports the clock-derived id, pending status, the merchant reference and the fee for the declared weight and city |
| `Gateway.HandleList` | internal/adapters/grpc/server.go:110-171 | no user id gives `Unauthenticated`; a service error gives 400; success echoes the raw page and limit with the service's orders, all the caller's and at most a normalised limit of them |
| `Gateway.HandleCancel` | internal/adapters/grpc/server.go:173-184 | no user id gives `Unauthenticated`; otherwise 200 exactly when the service cancels, else 400 with its error |
| `Gateway.HandleLogout` | internal/adapters/grpc/server.go:186-197 | unauthenticated exactly when no user id is found, and 200 otherwise |
| `Gateway.Handle` | internal/adapters/grpc/server.go:37-197 | login and signup are answered and change no state; every other handler answers exactly when its own user-id extraction succeeds, and otherwise replies `Unauthenticated` with no state change; each call kind is answered by its own handler (signup, login, create, list, cancel, logout) with that handler's reply and state |
| `Gateway.Serve` | internal/adapters/grpc/server.go:199-218 | a rejected call gets `Unauthenticated` with the interceptor's message and changes nothing; login and signup are answered; any other call is answered exactly when both the interceptor's and the handler's validation succeed, and one admitted but refused by the handler gets `Unauthorized` with no change; a call the interceptor does not reject gets exactly the reply and state of `Handle` |
| `Gateway.PublicMethods` | internal/adapters/grpc/server.go:200 | of the six methods exactly login and signup are public |
| `Gateway.PublicCallsIgnoreMetadata` | internal/adapters/grpc/server.go:200-202 | login and signup are served the same with or without metadata and change no state |
| `Gateway.AdmittedCallsKnowTheirUser` | internal/adapters/grpc/server.go:212-217 | when both validations agree, a call the interceptor admits gets its user id in the handler, the same id, and a response message |
| `Gateway.ExpiryBetweenChecks` | internal/adapters/grpc/server.go:211-235 | a token that expires between the interceptor's check and the handler's is admitted, then answered `Unauthenticated` `Unauthorized` with no state change |
| `Gateway.LogoutRevokesNothing` | internal/adapters/grpc/server.go:186-197 | after logout the state is unchanged and the same metadata is admitted as the same user for every protected call |
| `Gateway.ExpiresInMismatch` | internal/adapters/grpc/server.go:60 | the advertised expiry is five token lifetimes, and the token is refused well before it |
| `Gateway.LoginMasksStoreErrors` | internal/adapters/grpc/server.go:50-53 | a database failure during login is answered exactly like wrong credentials |

## Left out

- JSON bytes: a cached blob is kept as what `json.Unmarshal` reads from it. The model does not tell the service's own encoding of a page from other text that reads the same, such as `null`, `{}` or an object with unknown fields.
- Entry expiry: the TTL passed to Redis `SET` is not modelled, so cached pages never expire.
- Floating point: `float64` values are exact reals. The rounding of the fee, the COD fee and the last-page division is not modelled. NaN and ±Inf cannot occur either, although protobuf doubles can carry them. With them, `json.Marshal` would fail on the page and the page would not be cached. `Codec.Unencodable` stands for such values but is never produced by the service model.
- Integer width: `int64` values are unbounded. Overflow of `(page-1)*limit` or of `UnixNano` is not modelled.
- Timestamps: Postgres rounds `TIMESTAMP` to microseconds and drops the time zone. The model stores `created_at` as given, in nanoseconds.
- Clock readings: `time.Now()` is read several times during creation. The model takes the date, the nanosecond count and the creation time as independent inputs.
- Concurrency: calls are sequential, and a `SCAN` does not see writes made while it runs.
- SCAN matching: `MATCH prefix*` is modelled as a starts-with test. The prefixes used contain no glob metacharacters.
- Ordering ties: Postgres leaves the order of rows with equal `created_at` unspecified. The model fixes one order, the same for every page query. With distinct timestamps no other order exists (`Repository.ArrangementForced`).
- Repository.EveryOrderOnItsPage: holds because every page query uses the one fixed tie order. With equal timestamps, separate Postgres queries may order ties differently, so an order could be skipped or repeated across pages.
- Store failures: the count query, the select and a row scan fail through one error outcome, `ReadError`. An iteration that ends on an unreported error is `RowsStopped`, which says how many rows were read before it; which driver errors end an iteration is not modelled.
- Validation instants: the interceptor's and the handler's token checks are two validators. `Gateway.ParseAt` ties a validator to a clock reading; the other ways `ValidateToken` can fail are not told apart.
- JWT internals: the token encoding, the HS256 signature, the secret and `ValidateToken` are not modelled. Validation is a function argument, and tokens are the claims they carry.
- ValidateToken: the path where parsing reports no error but the token is invalid returns no claims and no error. That path is not modelled.
- Token time: `GenerateToken` reads the clock twice. The model uses one reading, in whole seconds.
- Signup: `server.go` calls an auth-service `Signup` that is not part of this model. Its outcome is an input of `Gateway.HandleSignup`, and it changes no modelled state.
- Responses: protobuf message copying and the RFC 3339 rendering of `created_at` in listings are not modelled. Responses carry the model's orders.
- Logging: the log lines for ignored cache failures are not modelled.
- Bootstrap: `main.go` wiring, connection setup, `Ping` and schema creation are not modelled. Of the schema's constraints, the primary-key, foreign-key and unique-username ones are modelled, as `Repository.Valid` and the insert checks.
- Column types: the `VARCHAR(255)` and `VARCHAR(20)` length limits and Postgres's refusal of NUL bytes in text are not modelled. An insert they would reject fails only through the `insertFault` argument of `Repository.CreateOrder`.
- Phone regex: `regexp` is modelled by an automaton for the one pattern used, not by a regular-expression engine.
- AuthService.Login: success is characterised only for stores with unique usernames. Otherwise the first row the query returns decides.

=== FILE: auth.dfy ===
/** The authentication service: log in against the user table and issue a
    token; log out.

    Login looks the user up by name and compares the stored password with
    the one supplied, character for character: whatever the users table
    holds is itself the credential. Logout does nothing, so a token stays
    usable until it expires. */
module AuthService {
  import opened Wrappers
  import opened Domain
  import Repository
  import Jwt

  const InvalidCredentials: string := "invalid credentials"

  /** A successful login: the issued token's claims and the user row. */
  datatype Session = Session(token: Jwt.Claims, user: User)

  /** `Login`: a lookup error is passed on; an unknown user and a wrong
      password give the same error; otherwise a token for the supplied
      username and the user's id is generated, and a signing error is passed
      on. */
  function Login(st: Repository.Store, username: string, password: string,
                 lookupFault: Option<string>, now: int, signFault: Option<string>): (r: Result<Session>)
    ensures lookupFault.Some? ==> r == Err(lookupFault.value)
    ensures r.Ok? ==> lookupFault.None? && signFault.None?
    ensures Repository.Valid(st) ==>
              (r.Ok? <==>
                 && lookupFault.None? && signFault.None?
                 && exists u :: u in st.users && u.username == username && u.password == password)
    ensures (lookupFault.None? && forall u :: u in st.users && u.username == username ==> u.password != password)
              ==> r == Err(InvalidCredentials)
    ensures r.Ok? ==> r.value.user in st.users && r.value.user.username == username && r.value.user.password == password
    ensures r.Ok? ==> r.value.token.username == username && r.value.token.userId == r.value.user.id
    ensures r.Ok? ==> Jwt.Live(r.value.token, now)
    ensures && lookupFault.None? && signFault.Some?
            && Repository.FirstNamed(st.users, username).Some?
            && Repository.FirstNamed(st.users, username).value.password == password
            ==> r == Err(signFault.value)
  {
    match Repository.FindUserByUsername(st, username, lookupFault)
    case Err(m) => Err(m)
    case Ok(None) =>
      NoUserNamed(st, username);
      Err(InvalidCredentials)
    case Ok(Some(user)) =>
      OnlyUserNamed(st, username, user);
      if user.password != password then Err(InvalidCredentials)
      else
        match Jwt.GenerateToken(username, user.id, now, signFault)
        case Err(m) => Err(m)
        case Ok(token) => Ok(Session(token, user))
  }

  /** When the lookup finds nobody, no row carries the name. */
  lemma NoUserNamed(st: Repository.Store, username: string)
    requires Repository.FindUserByUsername(st, username, None) == Ok(None)
    ensures forall u :: u in st.users ==> u.username != username
  {
    forall u | u in st.users
      ensures u.username != username
    {
      var i :| 0 <= i < |st.users| && st.users[i] == u;
    }
  }

  /** With unique usernames, the user the lookup finds is the only row
      carrying that name. */
  lemma OnlyUserNamed(st: Repository.Store, username: string, user: User)
    requires Repository.FindUserByUsername(st, username, None) == Ok(Some(user))
    ensures Repository.Valid(st) ==> forall u :: u in st.users && u.username == username ==> u == user
  {
    if Repository.Valid(st) {
      forall u | u in st.users && u.username == username
        ensures u == user
      {
        Repository.FindUserUnique(st, username, u);
      }
    }
  }

  /** `Logout`: always succeeds and changes nothing; no token is revoked. */
  function Logout(userId: int): (r: Outcome)
    ensures r.Pass?
  {
    Pass
  }

  /** A client cannot tell an unknown username from a wrong password. */
  lemma LoginIndistinguishable(st: Repository.Store, unknown: string, known: string, wrong: string,
                               now: int, signFault: Option<string>)
    requires forall u :: u in st.users ==> u.username != unknown
    requires forall u :: u in st.users && u.username == known ==> u.password != wrong
    ensures Login(st, unknown, wrong, None, now, signFault) == Login(st, known, wrong, None, now, signFault)
    ensures Login(st, unknown, wrong, None, now, signFault) == Err(InvalidCredentials)
  {
  }

  /** Passwords are compared as stored: with unique usernames, presenting
      exactly the stored value (a bcrypt hash read from the table, say)
      logs in as that user. */
  lemma StoredValueIsCredential(st: Repository.Store, u: User, now: int)
    requires Repository.Valid(st) && u in st.users
    ensures Login(st, u.username, u.password, None, now, None).Ok?
    ensures Login(st, u.username, u.password, None, now, None).value.user == u
    ensures Login(st, u.username, u.password, None, now, None).value.token.userId == u.id
  {
    Repository.FindUserUnique(st, u.username, u);
  }

  /** A user whose stored password is a bcrypt hash cannot log in with the
      plaintext it was made from: any other string than the stored one is
      refused. */
  lemma LoginRejectsHashedPassword(st: Repository.Store, u: User, plaintext: string, now: int)
    requires Repository.Valid(st) && u in st.users
    requires |u.password| >= 4 && u.password[..4] == "$2a$"
    requires |plaintext| < 4 || plaintext[..4] != "$2a$"
    ensures Login(st, u.username, plaintext, None, now, None) == Err(InvalidCredentials)
  {
    Repository.FindUserUnique(st, u.username, u);
    assert plaintext != u.password;
  }
}

=== FILE: codec.dfy ===
/** JSON encoding of cached listings, kept abstract.

    The cache stores bytes, and a `Blob` stands for a byte string by what
    `json.Unmarshal` makes of it when decoding into the `(Orders, Total)`
    pair. `Json(l)` is every byte string read as the page `l`: the service's
    own encoding of `l`, but equally text it never writes, such as `null`,
    `{}` or an object with unknown fields, which reads as the page of its
    known fields. `Malformed` is every byte string the decoder rejects.
    `json.Marshal` fails only on values JSON cannot represent. */
module Codec {
  import opened Wrappers
  import opened Domain

  /** A value handed to the cache's `Set`, which accepts any Go value. */
  datatype Value =
    | PageValue(listing: Listing)
    /** A value `json.Marshal` rejects, such as a NaN or infinite float,
        a channel or a function. */
    | Unencodable

  /** Bytes held in, or returned by, the cache. */
  datatype Blob =
    /** No bytes at all: what the Redis client returns alongside an error. */
    | Empty
    /** Any byte string `json.Unmarshal` reads as this listing. */
    | Json(listing: Listing)
    /** Any byte string `json.Unmarshal` rejects. */
    | Malformed(text: string)

  /** `json.Marshal`: succeeds exactly on values JSON can represent, and its
      output decodes back to the value. */
  function Marshal(v: Value): (r: Option<Blob>)
    ensures r.Some? <==> v.PageValue?
    ensures r.Some? ==> Unmarshal(r.value) == Some(v.listing)
  {
    match v
    case PageValue(l) => Some(Json(l))
    case Unencodable => None
  }

  /** `json.Unmarshal` into the `(Orders, Total)` struct. */
  function Unmarshal(b: Blob): (r: Option<Listing>)
    ensures r.Some? <==> b.Json?
    ensures r.Some? ==> b == Json(r.value)
  {
    match b
    case Json(l) => Some(l)
    case _ => None
  }

  /** Up to the decoder's reading, the blobs that decode are exactly the
      encodings of pages: a blob decodes when some page encodes to it, and
      the empty reply does not decode. */
  lemma DecodeOnlyEncoded(b: Blob)
    ensures Unmarshal(b).Some? <==> exists l :: Marshal(PageValue(l)) == Some(b)
    ensures Unmarshal(Empty) == None
  {
    if b.Json? {
      assert Marshal(PageValue(b.listing)) == Some(b);
    }
  }
}

=== FILE: domain.dfy ===
/** The records the service stores and exchanges: users, delivery orders
    and one page of an owner's orders.

    Go's `int64` fields become unbounded `int`, its `float64` fields
    become `real`, and a `time.Time` becomes an `int` count of
    nanoseconds since the Unix epoch. */
module Domain {

  datatype User = User(id: int, username: string, password: string)

  datatype Order = Order(
    consignmentId: string,
    createdAt: int,
    description: string,
    merchantOrderId: string,
    recipientName: string,
    recipientAddress: string,
    recipientPhone: string,
    orderAmount: real,
    totalFee: real,
    instruction: string,
    orderTypeId: int,
    codFee: real,
    promoDiscount: real,
    discount: real,
    deliveryFee: real,
    status: string,
    orderType: string,
    itemType: int,
    storeName: string,
    storeContactPhone: string,
    codAmount: real,
    deliveryCharge: real,
    userId: int,
    storeId: int,
    recipientCity: int,
    recipientZone: int,
    recipientArea: int,
    deliveryType: int,
    itemQuantity: int,
    itemWeight: real,
    amountToCollect: real
  )

  /** The only two statuses the service itself writes. Other, externally
      set statuses may exist in the store. */
  const Pending: string := "Pending"
  const Cancelled: string := "Cancelled"

  /** One page of an owner's orders together with the number of orders that
      owner has in all (the `(orders, total)` pair of a listing). */
  datatype Listing = Listing(orders: seq<Order>, total: int)

  const DefaultLimit: int := 10
  const FirstPage: int := 1

  /** A page size below 1 means the default of 10; both the order service
      and the repository apply this rule. */
  function NormaliseLimit(limit: int): (l: int)
    ensures 1 <= l
    ensures 1 <= limit ==> l == limit
    ensures limit < 1 ==> l == 10
  {
    if limit < 1 then DefaultLimit else limit
  }

  /** A page number below 1 means the first page. */
  function NormalisePage(page: int): (p: int)
    ensures 1 <= p
    ensures 1 <= page ==> p == page
    ensures page < 1 ==> p == 1
  {
    if page < 1 then FirstPage else page
  }

  /** Normalising an already normalised page size or page number changes
      nothing, so the repository's second normalisation of the values the
      service passes it is a no-op. */
  lemma NormaliseIdempotent(limit: int, page: int)
    ensures NormaliseLimit(NormaliseLimit(limit)) == NormaliseLimit(limit)
    ensures NormalisePage(NormalisePage(page)) == NormalisePage(page)
    ensures limit < 1 ==> NormaliseLimit(limit) == 10
    ensures page < 1 ==> NormalisePage(page) == 1
  {
  }
}

=== FILE: gateway.dfy ===
/** The gRPC front end: the authentication interceptor, the handlers'
    extraction of the caller's user id from request metadata, and the
    response each handler builds from the services' results.

    Metadata keys are lower-case, as gRPC delivers them. Token validation
    (signature and expiry check) is a `Validator` argument, so every
    statement here holds for any validator. A protected call validates its
    token twice, in the interceptor and again in the handler, at two
    instants: `Serve` takes one validator for each, and `ParseAt` gives the
    expiry check its clock. */
module Gateway {
  import opened Wrappers
  import opened Text
  import opened Domain
  import Jwt
  import Redis
  import Repository
  import OrderService
  import AuthService

  const ServicePath: string := "/order.OrderService/"
  const LoginMethod: string := ServicePath + "Login"
  const SignupMethod: string := ServicePath + "Signup"
  const AuthorizationKey: string := "authorization"
  const BearerPrefix: string := "Bearer "

  const MissingMetadata: string := "missing metadata"
  const MissingAuthorization: string := "missing authorization"
  const InvalidToken: string := "invalid token"
  const Unauthorized: string := "Unauthorized"

  type Metadata = map<string, seq<string>>

  /** Parses and checks a token string, yielding its claims or an error. */
  type Validator = string -> Result<Jwt.Claims>

  /** `md.Get("authorization")`: every value sent under the key. */
  function AuthorizationValues(md: Metadata): seq<string> {
    if AuthorizationKey in md then md[AuthorizationKey] else []
  }

  /** The token both the interceptor and the handlers validate: the first
      authorization value with a leading "Bearer " removed if present. */
  function PresentedToken(md: Metadata): (t: string)
    requires |AuthorizationValues(md)| > 0
    ensures StartsWith(AuthorizationValues(md)[0], BearerPrefix) ==> BearerPrefix + t == AuthorizationValues(md)[0]
    ensures !StartsWith(AuthorizationValues(md)[0], BearerPrefix) ==> t == AuthorizationValues(md)[0]
  {
    TrimPrefix(AuthorizationValues(md)[0], BearerPrefix)
  }

  // ------------------------------------------------------------ user id

  /** `getUserIDFromContext`: the user id in the claims of the presented
      token, or why there is none. */
  function UserIdFromContext(md: Option<Metadata>, validate: Validator): (r: Result<int>)
    ensures md.None? ==> r == Err(MissingMetadata)
    ensures md.Some? && |AuthorizationValues(md.value)| == 0 ==> r == Err(MissingAuthorization)
    ensures r.Ok? <==>
              md.Some? && |AuthorizationValues(md.value)| > 0 && validate(PresentedToken(md.value)).Ok?
    ensures r.Ok? ==> r.value == validate(PresentedToken(md.value)).value.userId
    ensures md.Some? && |AuthorizationValues(md.value)| > 0 && validate(PresentedToken(md.value)).Err? ==>
              r == Err(validate(PresentedToken(md.value)).msg)
  {
    match md
    case None => Err(MissingMetadata)
    case Some(m) =>
      if |AuthorizationValues(m)| == 0 then Err(MissingAuthorization)
      else
        match validate(PresentedToken(m))
        case Err(e) => Err(e)
        case Ok(claims) => Ok(claims.userId)
  }

  // -------------------------------------------------------- interceptor

  /** What the interceptor decides about one call. */
  datatype Gate =
    | PassThrough
    | Admit(userId: int)
    | Reject(message: string)

  predicate Public(fullMethod: string) {
    fullMethod == LoginMethod || fullMethod == SignupMethod
  }

  /** `AuthInterceptor`: login and signup pass unchecked; every other call
      needs metadata, an authorization value and a token that validates. */
  function Intercept(fullMethod: string, md: Option<Metadata>, validate: Validator): (r: Gate)
    ensures Public(fullMethod) <==> r.PassThrough?
    ensures !Public(fullMethod) ==> (r.Admit? <==> UserIdFromContext(md, validate).Ok?)
    ensures r.Admit? ==> UserIdFromContext(md, validate) == Ok(r.userId)
    ensures r.Reject? ==> r.message in {MissingMetadata, MissingAuthorization, InvalidToken}
    ensures r.Reject? && UserIdFromContext(md, validate).msg != r.message ==> r.message == InvalidToken
    ensures !Public(fullMethod) && md.None? ==> r == Reject(MissingMetadata)
    ensures !Public(fullMethod) && md.Some? && |AuthorizationValues(md.value)| == 0 ==>
              r == Reject(MissingAuthorization)
    ensures && !Public(fullMethod) && md.Some? && |AuthorizationValues(md.value)| > 0
            && validate(PresentedToken(md.value)).Err?
            ==> r == Reject(InvalidToken)
  {
    if Public(fullMethod) then PassThrough
    else
      match md
      case None => Reject(MissingMetadata)
      case Some(m) =>
        if |AuthorizationValues(m)| == 0 then Reject(MissingAuthorization)
        else
          match validate(PresentedToken(m))
          case Err(_) => Reject(InvalidToken)
          case Ok(claims) => Admit(claims.userId)
  }

  /** A validator for tokens issued from a table of claims, checked at
      instant `now`: an unknown token or one past its expiry is refused. */
  function ParseAt(issued: map<string, Jwt.Claims>, now: int): (v: Validator)
    ensures forall t :: v(t).Ok? <==> t in issued && Jwt.Live(issued[t], now)
    ensures forall t :: v(t).Ok? ==> v(t).value == issued[t]
  {
    t => if t in issued && Jwt.Live(issued[t], now) then Ok(issued[t]) else Err(InvalidToken)
  }

  /** A token may be sent with or without the "Bearer " scheme: both forms
      reach the validator as the same string. */
  lemma BearerOptional(t: string, validate: Validator)
    requires !StartsWith(t, BearerPrefix)
    ensures var withScheme := map[AuthorizationKey := [BearerPrefix + t]];
            var bare := map[AuthorizationKey := [t]];
            UserIdFromContext(Some(withScheme), validate) == UserIdFromContext(Some(bare), validate)
  {
    TrimPrefixOfConcat(BearerPrefix, t);
    assert PresentedToken(map[AuthorizationKey := [BearerPrefix + t]]) == t;
    assert PresentedToken(map[AuthorizationKey := [t]]) == t;
  }

  /** Only the first authorization value is looked at. */
  lemma FirstAuthorizationOnly(md: Metadata, first: string, rest: seq<string>, validate: Validator)
    ensures UserIdFromContext(Some(md[AuthorizationKey := [first] + rest]), validate)
         == UserIdFromContext(Some(md[AuthorizationKey := [first]]), validate)
  {
    assert AuthorizationValues(md[AuthorizationKey := [first] + rest])[0] == first;
    assert AuthorizationValues(md[AuthorizationKey := [first]])[0] == first;
  }

  // ------------------------------------------------------------ last page

  /** The least integer not below `x`. */
  function Ceil(x: real): (r: int)
    ensures (r - 1) as real < x <= r as real
  {
    -((-x).Floor)
  }

  /** `int64(math.Ceil(float64(total) / float64(limit)))` with the limit
      exactly as the client sent it. A zero limit divides by zero and the
      conversion of the resulting infinity or NaN is undefined: `None`. */
  function LastPage(total: int, limit: int): (r: Option<int>)
    ensures r.None? <==> limit == 0
    ensures r.Some? ==> (r.value - 1) as real < total as real / limit as real <= r.value as real
  {
    if limit == 0 then None else Some(Ceil(total as real / limit as real))
  }

  /** For a positive limit the last page is the page holding the last
      order, and an owner without orders has last page 0. */
  lemma LastPageHoldsLastOrder(total: int, limit: int)
    requires 0 <= total && 1 <= limit
    ensures total == 0 ==> LastPage(total, limit) == Some(0)
    ensures 0 < total ==> LastPage(total, limit) == Some((total - 1) / limit + 1)
  {
    if 0 < total {
      var q := (total - 1) / limit;
      assert q * limit <= total - 1 < (q + 1) * limit;
      CeilOfQuotient(total, limit, q);
    }
  }

  lemma CeilOfQuotient(total: int, limit: int, q: int)
    requires 1 <= limit && q * limit < total <= (q + 1) * limit
    ensures Ceil(total as real / limit as real) == q + 1
  {
    var x := total as real / limit as real;
    assert x * limit as real == total as real;
    assert (q * limit) as real == q as real * limit as real;
    assert ((q + 1) * limit) as real == (q + 1) as real * limit as real;
    assert q as real < x;
    assert x <= (q + 1) as real;
  }

  /** The last page is computed from the raw limit while the listing used
      the normalised one: for a limit of -1 the service returns pages of
      ten yet reports last page -25 for 25 orders, and for a limit of 0 it
      divides by zero. */
  lemma RawLimitLastPage()
    ensures NormaliseLimit(-1) == 10 && LastPage(25, -1) == Some(-25)
    ensures NormaliseLimit(0) == 10 && LastPage(25, 0).None?
  {
    assert 25 as real / -1 as real == -25 as real;
  }

  // ------------------------------------------------------------ responses

  datatype StatusCode = Unauthenticated

  const Success: string := "success"
  const Error: string := "error"

  /** The payload of a response message. */
  datatype Body =
    | NoData
    | Created(consignmentId: string, merchantOrderId: string, orderStatus: string, deliveryFee: real)
    | Page(orders: seq<Order>, total: int, currentPage: int, perPage: int, totalInPage: int, lastPage: Option<int>)
    | Tokens(tokenType: string, expiresIn: int, accessToken: Jwt.Claims, refreshToken: string)

  /** A response message: its `Code`, `Type`, `Message` and payload. */
  datatype Response = Response(code: int, kind: string, message: string, body: Body)

  /** What a call returns: a gRPC status error, or a response message. */
  datatype Reply =
    | Failed(status: StatusCode, message: string)
    | Answered(response: Response)

  const TokenType: string := "Bearer"
  const AdvertisedExpiry: int := 432000
  const RefreshToken: string := "dummy-refresh"

  /** `Signup`. The auth service's `Signup` is not part of this model, so
      its outcome is an argument. */
  function HandleSignup(outcome: Outcome): (r: Response)
    ensures r.code == 200 <==> outcome.Pass?
    ensures outcome.Fail? ==> r == Response(400, Error, outcome.msg, NoData)
    ensures r.body == NoData
  {
    match outcome
    case Fail(m) => Response(400, Error, m, NoData)
    case Pass => Response(200, Success, "User registered successfully", NoData)
  }

  /** `Login`: every failure of the auth service, a store error included,
      is reported as invalid credentials; the handler then generates a
      second token, which is the one returned. */
  function HandleLogin(st: Repository.Store, username: string, password: string, lookupFault: Option<string>,
                       now: int, signFault: Option<string>, resignFault: Option<string>): (r: Response)
    ensures r.code in {200, 400, 500}
    ensures r.code == 400 <==> AuthService.Login(st, username, password, lookupFault, now, signFault).Err?
    ensures r.code == 400 ==> r == Response(400, Error, "Invalid credentials", NoData)
    ensures r.code == 500 ==> resignFault.Some? && r == Response(500, Error, resignFault.value, NoData)
    ensures r.code == 200 <==>
              AuthService.Login(st, username, password, lookupFault, now, signFault).Ok? && resignFault.None?
    ensures r.code == 200 ==>
              && r.body.Tokens? && r.body.tokenType == TokenType && r.body.expiresIn == AdvertisedExpiry
              && var user := AuthService.Login(st, username, password, lookupFault, now, signFault).value.user;
                 r.body.accessToken.userId == user.id && r.body.accessToken.username == username
  {
    match AuthService.Login(st, username, password, lookupFault, now, signFault)
    case Err(_) => Response(400, Error, "Invalid credentials", NoData)
    case Ok(session) =>
      match Jwt.GenerateToken(username, session.user.id, now, resignFault)
      case Err(m) => Response(500, Error, m, NoData)
      case Ok(token) =>
        Response(200, Success, "Logged in", Tokens(TokenType, AdvertisedExpiry, token, RefreshToken))
  }

  /** The fields of a create request, copied into an otherwise empty
      order. */
  function FromRequest(s: OrderService.Submission): (o: Order)
    ensures OrderService.Submitted(o) == s
    ensures o.consignmentId == "" && o.status == "" && o.userId == 0 && o.createdAt == 0
  {
    Order(
      consignmentId := "", createdAt := 0, description := s.description,
      merchantOrderId := s.merchantOrderId, recipientName := s.recipientName,
      recipientAddress := s.recipientAddress, recipientPhone := s.recipientPhone,
      orderAmount := 0.0, totalFee := 0.0, instruction := s.instruction, orderTypeId := 0,
      codFee := 0.0, promoDiscount := 0.0, discount := 0.0, deliveryFee := 0.0, status := "",
      orderType := "", itemType := s.itemType, storeName := "", storeContactPhone := "",
      codAmount := 0.0, deliveryCharge := 0.0, userId := 0, storeId := s.storeId,
      recipientCity := s.recipientCity, recipientZone := s.recipientZone,
      recipientArea := s.recipientArea, deliveryType := s.deliveryType,
      itemQuantity := s.itemQuantity, itemWeight := s.itemWeight,
      amountToCollect := s.amountToCollect)
  }

  /** `CreateOrder`: unauthenticated without a user id; 422 with the
      service's error; otherwise the new order's id, merchant reference,
      status and fee. */
  function HandleCreate(st: OrderService.State, md: Option<Metadata>, validate: Validator,
                        s: OrderService.Submission, clock: OrderService.Clock,
                        insertFault: Option<string>, run: Redis.ScanRun): (r: (Reply, OrderService.State))
    ensures UserIdFromContext(md, validate).Err? ==> r == (Failed(Unauthenticated, Unauthorized), st)
    ensures UserIdFromContext(md, validate).Ok? ==>
              var uid := UserIdFromContext(md, validate).value;
              var (res, st') := OrderService.CreateOrder(st, FromRequest(s), uid, clock, insertFault, run);
              && r.1 == st'
              && (res.Err? ==> r.0 == Answered(Response(422, Error, res.msg, NoData)))
              && (res.Ok? ==> r.0 == Answered(Response(200, Success, "Order Created Successfully", Receipt(res.value))))
  {
    match UserIdFromContext(md, validate)
    case Err(_) => (Failed(Unauthenticated, Unauthorized), st)
    case Ok(uid) =>
      var (res, st') := OrderService.CreateOrder(st, FromRequest(s), uid, clock, insertFault, run);
      match res
      case Err(m) => (Answered(Response(422, Error, m, NoData)), st')
      case Ok(o) => (Answered(Response(200, Success, "Order Created Successfully", Receipt(o))), st')
  }

  /** The part of a created order the response reports. */
  function Receipt(o: Order): Body {
    Created(o.consignmentId, o.merchantOrderId, o.status, o.deliveryFee)
  }

  /** A successful creation reports the id derived from the clock, the
      pending status, the client's merchant reference and the fee for the
      declared weight and city. */
  lemma CreateReportsStampedOrder(st: OrderService.State, md: Option<Metadata>, validate: Validator,
                                  s: OrderService.Submission, clock: OrderService.Clock,
                                  insertFault: Option<string>, run: Redis.ScanRun)
    requires HandleCreate(st, md, validate, s, clock, insertFault, run).0.Answered?
    requires HandleCreate(st, md, validate, s, clock, insertFault, run).0.response.code == 200
    ensures var b := HandleCreate(st, md, validate, s, clock, insertFault, run).0.response.body;
            && b.consignmentId == OrderService.ConsignmentId(clock)
            && b.orderStatus == Pending
            && b.merchantOrderId == s.merchantOrderId
            && b.deliveryFee == OrderService.DeliveryFee(s.itemWeight, s.recipientCity)
  {
    var uid := UserIdFromContext(md, validate).value;
    var o := OrderService.CreateOrder(st, FromRequest(s), uid, clock, insertFault, run).0.value;
    assert o == OrderService.Stamp(FromRequest(s), uid, clock);
  }

  /** `ListOrders`: the page the service returns, echoed with the raw page
      number and limit of the request and the last page computed from
      them. */
  function HandleList(st: OrderService.State, md: Option<Metadata>, validate: Validator, limit: int, page: int,
                      getFault: Option<string>, read: Repository.ReadOutcome, setFault: Option<string>): (r: (Reply, OrderService.State))
    ensures UserIdFromContext(md, validate).Err? ==> r == (Failed(Unauthenticated, Unauthorized), st)
    ensures UserIdFromContext(md, validate).Ok? ==>
              var uid := UserIdFromContext(md, validate).value;
              var (res, st') := OrderService.ListOrders(st, uid, limit, page, getFault, read, setFault);
              && r.1 == st'
              && (res.Err? ==> r.0 == Answered(Response(400, Error, res.msg, NoData)))
              && (res.Ok? ==> r.0.Answered? && r.0.response.code == 200
                              && r.0.response.body == Page(res.value.orders, res.value.total, page, limit,
                                                           |res.value.orders|, LastPage(res.value.total, limit))
                              && r.0.response.body.totalInPage <= NormaliseLimit(limit)
                              && forall o :: o in r.0.response.body.orders ==> o.userId == uid)
  {
    match UserIdFromContext(md, validate)
    case Err(_) => (Failed(Unauthenticated, Unauthorized), st)
    case Ok(uid) =>
      var (res, st') := OrderService.ListOrders(st, uid, limit, page, getFault, read, setFault);
      match res
      case Err(m) => (Answered(Response(400, Error, m, NoData)), st')
      case Ok(l) =>
        (Answered(Response(200, Success, "Orders successfully fetched.",
                           Page(l.orders, l.total, page, limit, |l.orders|, LastPage(l.total, limit)))), st')
  }

  /** `CancelOrder`: 400 with the service's error, 200 otherwise. */
  function HandleCancel(st: OrderService.State, md: Option<Metadata>, validate: Validator, consignmentId: string,
                        dbFault: Option<string>, run: Redis.ScanRun): (r: (Reply, OrderService.State))
    ensures UserIdFromContext(md, validate).Err? ==> r == (Failed(Unauthenticated, Unauthorized), st)
    ensures UserIdFromContext(md, validate).Ok? ==>
              var uid := UserIdFromContext(md, validate).value;
              var (res, st') := OrderService.CancelOrder(st, consignmentId, uid, dbFault, run);
              && r.1 == st'
              && r.0.Answered?
              && (r.0.response.code == 200 <==> res.Pass?)
              && (res.Fail? ==> r.0.response == Response(400, Error, res.msg, NoData))
  {
    match UserIdFromContext(md, validate)
    case Err(_) => (Failed(Unauthenticated, Unauthorized), st)
    case Ok(uid) =>
      var (res, st') := OrderService.CancelOrder(st, consignmentId, uid, dbFault, run);
      match res
      case Fail(m) => (Answered(Response(400, Error, m, NoData)), st')
      case Pass => (Answered(Response(200, Success, "Order Cancelled Successfully", NoData)), st')
  }

  /** `Logout`: unauthenticated without a user id, otherwise the auth
      service's outcome, which is always success. */
  function HandleLogout(md: Option<Metadata>, validate: Validator): (r: Reply)
    ensures r.Failed? <==> UserIdFromContext(md, validate).Err?
    ensures r.Answered? ==> r.response.code == 200
  {
    match UserIdFromContext(md, validate)
    case Err(_) => Failed(Unauthenticated, Unauthorized)
    case Ok(uid) =>
      match AuthService.Logout(uid)
      case Fail(m) => Answered(Response(400, Error, m, NoData))
      case Pass => Answered(Response(200, Success, "Successfully logged out", NoData))
  }

  // ------------------------------------------------------------ dispatch

  /** One remote call and its request fields. */
  datatype Call =
    | SignupCall(username: string, password: string)
    | LoginCall(username: string, password: string)
    | CreateOrderCall(submission: OrderService.Submission)
    | ListOrdersCall(limit: int, page: int)
    | CancelOrderCall(consignmentId: string)
    | LogoutCall

  function FullMethod(call: Call): string {
    ServicePath + match call
      case SignupCall(_, _) => "Signup"
      case LoginCall(_, _) => "Login"
      case CreateOrderCall(_) => "CreateOrder"
      case ListOrdersCall(_, _) => "ListOrders"
      case CancelOrderCall(_) => "CancelOrder"
      case LogoutCall => "Logout"
  }

  /** Everything outside the state that a call's result depends on: the
      outcome of the unmodelled signup, the clocks, and the failures of the
      store, the cache and token signing; `listRead` is how the listing's
      queries fare and `dbFault` the cancellation's update. */
  datatype Env = Env(
    signupOutcome: Outcome, now: int, clock: OrderService.Clock,
    lookupFault: Option<string>, signFault: Option<string>, resignFault: Option<string>,
    insertFault: Option<string>, getFault: Option<string>, listRead: Repository.ReadOutcome,
    dbFault: Option<string>, setFault: Option<string>, run: Redis.ScanRun)

  /** The handler behind a method, with the state it leaves. Login and
      signup never read the metadata; every other handler extracts the
      user id itself and answers unauthenticated when that fails. */
  function Handle(st: OrderService.State, md: Option<Metadata>, validate: Validator, call: Call, env: Env)
    : (r: (OrderService.State, Reply))
    ensures call.SignupCall? || call.LoginCall? ==> r.0 == st && r.1.Answered?
    ensures !call.SignupCall? && !call.LoginCall? ==>
              (r.1.Answered? <==> UserIdFromContext(md, validate).Ok?)
    ensures !call.SignupCall? && !call.LoginCall? && UserIdFromContext(md, validate).Err? ==>
              r == (st, Failed(Unauthenticated, Unauthorized))
    ensures call.LogoutCall? ==> r.0 == st
    ensures call.SignupCall? ==> r == (st, Answered(HandleSignup(env.signupOutcome)))
    ensures call.LoginCall? ==>
              r == (st, Answered(HandleLogin(st.store, call.username, call.password,
                                             env.lookupFault, env.now, env.signFault, env.resignFault)))
    ensures call.CreateOrderCall? ==>
              var created := HandleCreate(st, md, validate, call.submission, env.clock, env.insertFault, env.run);
              r == (created.1, created.0)
    ensures call.ListOrdersCall? ==>
              var listed := HandleList(st, md, validate, call.limit, call.page, env.getFault, env.listRead, env.setFault);
              r == (listed.1, listed.0)
    ensures call.CancelOrderCall? ==>
              var cancelled := HandleCancel(st, md, validate, call.consignmentId, env.dbFault, env.run);
              r == (cancelled.1, cancelled.0)
    ensures call.LogoutCall? ==> r == (st, HandleLogout(md, validate))
  {
    match call
    case SignupCall(_, _) => (st, Answered(HandleSignup(env.signupOutcome)))
    case LoginCall(u, p) =>
      (st, Answered(HandleLogin(st.store, u, p, env.lookupFault, env.now, env.signFault, env.resignFault)))
    case CreateOrderCall(s) =>
      var (r, st') := HandleCreate(st, md, validate, s, env.clock, env.insertFault, env.run); (st', r)
    case ListOrdersCall(l, p) =>
      var (r, st') := HandleList(st, md, validate, l, p, env.getFault, env.listRead, env.setFault); (st', r)
    case CancelOrderCall(id) =>
      var (r, st') := HandleCancel(st, md, validate, id, env.dbFault, env.run); (st', r)
    case LogoutCall => (st, HandleLogout(md, validate))
  }

  /** A call through the interceptor: a rejected call is answered with an
      unauthenticated status and reaches no handler. The interceptor
      validates with `atGate`, the handler once more with `atHandler`. */
  function Serve(st: OrderService.State, md: Option<Metadata>, atGate: Validator, atHandler: Validator,
                 call: Call, env: Env)
    : (r: (Reply, OrderService.State))
    ensures Intercept(FullMethod(call), md, atGate).Reject? ==>
              r == (Failed(Unauthenticated, Intercept(FullMethod(call), md, atGate).message), st)
    ensures call.SignupCall? || call.LoginCall? ==> r.0.Answered? && r.1 == st
    ensures !call.SignupCall? && !call.LoginCall? ==>
              (r.0.Answered? <==> UserIdFromContext(md, atGate).Ok? && UserIdFromContext(md, atHandler).Ok?)
    ensures Intercept(FullMethod(call), md, atGate).Admit? && UserIdFromContext(md, atHandler).Err? ==>
              r == (Failed(Unauthenticated, Unauthorized), st)
    ensures !Intercept(FullMethod(call), md, atGate).Reject? ==>
              r == (Handle(st, md, atHandler, call, env).1, Handle(st, md, atHandler, call, env).0)
  {
    PublicMethods(call);
    match Intercept(FullMethod(call), md, atGate)
    case Reject(m) => (Failed(Unauthenticated, m), st)
    case _ =>
      var (st', reply) := Handle(st, md, atHandler, call, env);
      (reply, st')
  }

  /** Only login and signup are public. */
  lemma PublicMethods(call: Call)
    ensures Public(FullMethod(call)) <==> call.SignupCall? || call.LoginCall?
  {
    assert LoginMethod == FullMethod(LoginCall("", ""));
    assert SignupMethod == FullMethod(SignupCall("", ""));
    match call
    case SignupCall(_, _) =>
    case LoginCall(_, _) =>
    case _ =>
      assert FullMethod(call)[|ServicePath|..] != "Login";
      assert FullMethod(call)[|ServicePath|..] != "Signup";
  }

  /** Login and signup are served the same with or without metadata, and
      change nothing. Signup leaves the state alone because account
      creation is an outcome supplied from outside, not a store update. */
  lemma PublicCallsIgnoreMetadata(st: OrderService.State, md: Option<Metadata>, atGate: Validator,
                                  atHandler: Validator, call: Call, env: Env)
    requires call.SignupCall? || call.LoginCall?
    ensures Serve(st, md, atGate, atHandler, call, env) == Serve(st, None, atGate, atHandler, call, env)
    ensures Serve(st, md, atGate, atHandler, call, env).1 == st
  {
    PublicMethods(call);
  }

  /** When both validations give the same verdict (a token far from its
      expiry), a call the interceptor admits reaches its handler with the
      same user id: the handler's own extraction does not fail for it. */
  lemma AdmittedCallsKnowTheirUser(st: OrderService.State, md: Option<Metadata>, validate: Validator,
                                   call: Call, env: Env)
    requires Intercept(FullMethod(call), md, validate).Admit?
    ensures UserIdFromContext(md, validate) == Ok(Intercept(FullMethod(call), md, validate).userId)
    ensures Serve(st, md, validate, validate, call, env).0.Answered?
    ensures !Serve(st, md, validate, validate, call, env).0.Failed?
  {
  }

  /** A token that expires between the interceptor's check and the
      handler's is admitted and then refused: the call is answered
      unauthenticated with "Unauthorized" and changes nothing. */
  lemma ExpiryBetweenChecks(st: OrderService.State, md: Metadata, issued: map<string, Jwt.Claims>,
                            admittedAt: int, handledAt: int, call: Call, env: Env)
    requires !call.SignupCall? && !call.LoginCall?
    requires |AuthorizationValues(md)| > 0
    requires PresentedToken(md) in issued
    requires admittedAt < issued[PresentedToken(md)].expiresAt <= handledAt
    ensures Intercept(FullMethod(call), Some(md), ParseAt(issued, admittedAt))
         == Admit(issued[PresentedToken(md)].userId)
    ensures Serve(st, Some(md), ParseAt(issued, admittedAt), ParseAt(issued, handledAt), call, env)
         == (Failed(Unauthenticated, Unauthorized), st)
  {
    PublicMethods(call);
  }

  /** Logging out revokes nothing: the same metadata is admitted as the
      same user for every protected call afterwards, and the state is
      untouched. */
  lemma LogoutRevokesNothing(st: OrderService.State, md: Option<Metadata>, validate: Validator,
                             env: Env, next: Call, u: int)
    requires Intercept(FullMethod(LogoutCall), md, validate) == Admit(u)
    requires !next.SignupCall? && !next.LoginCall?
    ensures Serve(st, md, validate, validate, LogoutCall, env).1 == st
    ensures Serve(st, md, validate, validate, LogoutCall, env).0.response.code == 200
    ensures Intercept(FullMethod(next), md, validate) == Admit(u)
  {
    PublicMethods(next);
  }

  /** The advertised `ExpiresIn` of five days is not the token's lifetime
      of one day: the token is refused long before the advertised expiry. */
  lemma ExpiresInMismatch(st: Repository.Store, username: string, password: string, now: int)
    requires HandleLogin(st, username, password, None, now, None, None).code == 200
    ensures var r := HandleLogin(st, username, password, None, now, None, None);
            && r.body.expiresIn == 5 * Jwt.TokenLifetime
            && Jwt.Live(r.body.accessToken, now)
            && !Jwt.Live(r.body.accessToken, now + Jwt.TokenLifetime)
            && !Jwt.Live(r.body.accessToken, now + r.body.expiresIn - 1)
  {
  }

  /** A store failure during login looks exactly like wrong credentials. */
  lemma LoginMasksStoreErrors(st: Repository.Store, username: string, password: string, fault: string,
                              now: int, signFault: Option<string>, resignFault: Option<string>)
    ensures HandleLogin(st, username, password, Some(fault), now, signFault, resignFault)
         == Response(400, Error, "Invalid credentials", NoData)
  {
  }
}

=== FILE: jwt.dfy ===
/** Access tokens, kept at the level of their claims.

    A token is an HS256-signed JWT carrying a username, a user id and the
    registered `iat` and `exp` claims. The encoding, the signature and the
    secret key are not modelled: a token is represented by the claims it
    carries, and signing can only fail, which is an explicit `fault`.
    Times are whole seconds since the Unix epoch, the precision of a JWT
    numeric date. */
module Jwt {
  import opened Wrappers

  datatype Claims = Claims(username: string, userId: int, issuedAt: int, expiresAt: int)

  /** A token lives for 24 hours. */
  const TokenLifetime: int := 24 * 60 * 60

  /** `GenerateToken`: claims for the user, issued now and expiring one
      lifetime later, or the signing error. */
  function GenerateToken(username: string, userId: int, now: int, signFault: Option<string>): (r: Result<Claims>)
    ensures r.Ok? <==> signFault.None?
    ensures signFault.Some? ==> r == Err(signFault.value)
    ensures r.Ok? ==> r.value.username == username && r.value.userId == userId
    ensures r.Ok? ==> Live(r.value, now) && !Live(r.value, now + TokenLifetime)
  {
    if signFault.Some? then Err(signFault.value)
    else Ok(Claims(username, userId, now, now + TokenLifetime))
  }

  /** The expiry check a validating parser applies: a token is accepted
      strictly before its `exp` claim. */
  predicate Live(c: Claims, now: int) {
    now < c.expiresAt
  }

  /** A freshly generated token is accepted for exactly one lifetime: at
      every instant of the 24 hours after issue and at none later. */
  lemma TokenLivesOneDay(username: string, userId: int, now: int, later: int)
    requires now <= later
    ensures var c := GenerateToken(username, userId, now, None).value;
            Live(c, later) <==> later < now + TokenLifetime
  {
  }
}

=== FILE: orders.dfy ===
/** The order service: creation with validation, pricing and cache
    invalidation, cache-aside listing, and cancellation.

    The service works over the repository and, when one is wired in, the
    Redis cache. Everything the service reads from its environment is an
    argument: the clock (`Clock`), and the failures the store or the cache
    may report (`Option<string>` faults, `Redis.ScanRun`). */
module OrderService {
  import opened Wrappers
  import opened Text
  import opened Domain
  import opened Codec
  import Redis
  import Repository

  /** The store plus the cache, which may be absent (`s.cache == nil`). */
  datatype State = State(store: Repository.Store, cache: Option<Redis.Cache>)

  // ------------------------------------------------------------ validation

  const MissingFields: string := "missing required fields"
  const InvalidPhone: string := "invalid phone number"

  /** The required-field check: empty recipient name, phone or address, or a
      quantity, weight or amount to collect equal to zero. Only equality
      with zero is tested, so negative numbers pass. */
  predicate MissingRequired(req: Order): (r: bool)
    ensures !r ==> req.recipientName != "" && req.recipientPhone != "" && req.recipientAddress != ""
    ensures !r ==> req.itemQuantity != 0 && req.itemWeight != 0.0 && req.amountToCollect != 0.0
    ensures (&& req.itemQuantity < 0 && req.itemWeight < 0.0 && req.amountToCollect < 0.0
             && req.recipientName != "" && req.recipientPhone != "" && req.recipientAddress != "") ==> !r
  {
    || req.recipientName == ""
    || req.recipientPhone == ""
    || req.recipientAddress == ""
    || req.itemQuantity == 0
    || req.itemWeight == 0.0
    || req.amountToCollect == 0.0
  }

  /** A Bangladeshi mobile number: `01`, an operator digit from 3 to 9, and
      eight more digits, nothing before or after. */
  predicate IsMobileNumber(s: string) {
    && |s| == 11
    && s[0] == '0' && s[1] == '1'
    && '3' <= s[2] <= '9'
    && forall i :: 3 <= i < 11 ==> IsDigit(s[i])
  }

  /** The character the pattern `^(01)[3-9]{1}[0-9]{8}$` accepts at
      position `pos`. */
  predicate PatternAccepts(pos: nat, c: char) {
    if pos == 0 then c == '0'
    else if pos == 1 then c == '1'
    else if pos == 2 then '3' <= c <= '9'
    else pos < 11 && IsDigit(c)
  }

  /** Runs the pattern over `s`, starting at pattern position `pos`; the
      anchors require the whole string to be consumed at position 11. */
  predicate PatternRun(s: string, pos: nat)
    decreases |s|
  {
    if |s| == 0 then pos == 11 else PatternAccepts(pos, s[0]) && PatternRun(s[1..], pos + 1)
  }

  /** `phoneRegex.MatchString(phone)`. */
  predicate PhoneMatches(s: string) {
    PatternRun(s, 0)
  }

  lemma {:induction false} PatternRunSpec(s: string, pos: nat)
    requires pos <= 11
    ensures PatternRun(s, pos) <==> |s| == 11 - pos && forall i :: 0 <= i < |s| ==> PatternAccepts(pos + i, s[i])
    decreases |s|
  {
    if |s| > 0 && pos < 11 {
      PatternRunSpec(s[1..], pos + 1);
      if PatternAccepts(pos, s[0]) && pos + 1 <= 11 {
        assert forall i :: 1 <= i < |s| ==> s[i] == s[1..][i - 1];
      }
    }
  }

  /** The phone pattern accepts exactly the Bangladeshi mobile numbers. */
  lemma PhoneMatchesIff(s: string)
    ensures PhoneMatches(s) <==> IsMobileNumber(s)
  {
    PatternRunSpec(s, 0);
    if IsMobileNumber(s) {
      assert forall i :: 0 <= i < |s| ==> PatternAccepts(i, s[i]);
    }
    if PhoneMatches(s) {
      assert PatternAccepts(0, s[0]) && PatternAccepts(1, s[1]) && PatternAccepts(2, s[2]);
      assert forall i :: 3 <= i < 11 ==> PatternAccepts(i, s[i]);
    }
  }

  /** The two numbers the service's tests use, one accepted and one
      rejected, and three near misses: a wrong leading digit, one digit
      short, and operator digit 2. */
  lemma PhoneExamples()
    ensures PhoneMatches("01712345678")
    ensures !PhoneMatches("123")
    ensures !PhoneMatches("021234567")
    ensures !PhoneMatches("0171234567")
    ensures !PhoneMatches("01212345678")
  {
    PhoneAccepted();
    PhoneRejected();
  }

  lemma PhoneAccepted()
    ensures PhoneMatches("01712345678")
  {
    var accepted := "01712345678";
    assert accepted[3] == '1' && accepted[4] == '2' && accepted[5] == '3' && accepted[6] == '4';
    assert accepted[7] == '5' && accepted[8] == '6' && accepted[9] == '7' && accepted[10] == '8';
    assert IsMobileNumber(accepted);
    PhoneMatchesIff(accepted);
  }

  lemma PhoneRejected()
    ensures !PhoneMatches("123")
    ensures !PhoneMatches("021234567")
    ensures !PhoneMatches("0171234567")
    ensures !PhoneMatches("01212345678")
  {
    PhoneMatchesIff("123");
    PhoneMatchesIff("021234567");
    PhoneMatchesIff("0171234567");
    var operatorTwo := "01212345678";
    assert operatorTwo[2] == '2';
    PhoneMatchesIff(operatorTwo);
  }

  // --------------------------------------------------------------- pricing

  const HomeCity: int := 1

  function BaseFee(city: int): real {
    if city == HomeCity then 60.0 else 100.0
  }

  /** The delivery fee schedule by weight (kg) and destination city. */
  function DeliveryFee(weight: real, city: int): (fee: real)
    ensures 60.0 <= fee
    ensures weight <= 0.5 ==> fee == BaseFee(city)
    ensures 0.5 < weight <= 1.0 ==> fee == 70.0
    ensures weight > 1.0 ==> fee == BaseFee(city) + 10.0 + (weight - 1.0) * 15.0
  {
    if 0.5 < weight <= 1.0 then 70.0
    else if weight > 1.0 then BaseFee(city) + 10.0 + (weight - 1.0) * 15.0
    else BaseFee(city)
  }

  /** Parcels from half a kilogram to one kilogram cost 70 everywhere, so
      the weight band overrides the city rule. */
  lemma MiddleBandIgnoresCity(weight: real, city1: int, city2: int)
    requires 0.5 < weight <= 1.0
    ensures DeliveryFee(weight, city1) == DeliveryFee(weight, city2) == 70.0
  {
  }

  /** Inside the home city a heavier parcel never costs less. */
  lemma HomeFeeMonotone(w1: real, w2: real)
    requires w1 <= w2
    ensures DeliveryFee(w1, HomeCity) <= DeliveryFee(w2, HomeCity)
  {
  }

  /** Outside the home city the schedule is not monotone: a 0.5 kg parcel
      costs 100, a 0.6 kg parcel 70, and just above 1 kg the fee jumps to
      more than 110. */
  lemma OtherCityFeeNotMonotone(city: int)
    requires city != HomeCity
    ensures DeliveryFee(0.5, city) == 100.0 && DeliveryFee(0.6, city) == 70.0
    ensures DeliveryFee(1.0, city) == 70.0 && DeliveryFee(1.1, city) == 111.5
  {
  }

  /** The fee at the weight-band edges: exactly 0.5 kg pays the base fee,
      just above it and exactly 1 kg pay 70, and two home-city weights
      above 1 kg pay 70.0000015 and 77.5. */
  lemma FeeBoundaries(city: int)
    ensures DeliveryFee(0.5, city) == BaseFee(city)
    ensures DeliveryFee(0.5000001, city) == 70.0
    ensures DeliveryFee(1.0, city) == 70.0
    ensures DeliveryFee(1.0000001, HomeCity) == 70.0000015
    ensures DeliveryFee(1.5, HomeCity) == 77.5
  {
  }

  // --------------------------------------------------------------- identity

  /** The three readings of `time.Now()` that creation makes: the calendar
      date, the Unix time in nanoseconds, and the creation timestamp. */
  datatype Clock = Clock(year: int, month: int, day: int, unixNano: int, createdAt: int)

  /** Two decimal digits of `n % 100`, zero padded. */
  function TwoDigits(n: int): (r: string)
    ensures |r| == 2 && AllDigits(r)
  {
    [DigitChar((n % 100) / 10), DigitChar(n % 10)]
  }

  /** `time.Now().Format("060102")`: year within the century, month, day. */
  function DateStamp(clock: Clock): (r: string)
    ensures |r| == 6 && AllDigits(r)
  {
    TwoDigits(clock.year) + TwoDigits(clock.month) + TwoDigits(clock.day)
  }

  /** Go's `%` on integers: truncates toward zero, so the remainder takes
      the sign of the dividend. */
  function GoRem(a: int, b: int): (r: int)
    requires 0 < b
    ensures -b < r < b
    ensures a - r == b * GoQuo(a, b)
    ensures 0 <= a ==> 0 <= r
    ensures a < 0 ==> r <= 0
  {
    if 0 <= a then a % b
    else
      var q := (-a) / b;
      assert -a == b * q + (-a) % b;
      assert a + (-a) % b == -(b * q) == b * (-q);
      -((-a) % b)
  }

  /** Go's `/` on integers: the quotient rounded toward zero. */
  function GoQuo(a: int, b: int): int
    requires 0 < b
  {
    if 0 <= a then a / b else -((-a) / b)
  }

  const IdPrefix: string := "DA"
  const IdRoute: string := "BNWWN"

  /** `fmt.Sprintf("DA%vBNWWN%d", date, UnixNano()%1000)`. */
  function ConsignmentId(clock: Clock): (id: string)
    ensures |id| >= 14
    ensures id[..2] == IdPrefix && id[8..13] == IdRoute
    ensures id[2..8] == DateStamp(clock)
    ensures ParseDecimal(id[13..]) == Some(GoRem(clock.unixNano, 1000))
  {
    var suffix := Decimal(GoRem(clock.unixNano, 1000));
    DecimalRoundTrip(GoRem(clock.unixNano, 1000));
    var id := IdPrefix + DateStamp(clock) + IdRoute + suffix;
    assert id[13..] == suffix;
    id
  }

  /** After 1970 the numeric suffix lies in [0, 1000), so the id has 14 to
      16 characters and at most 1000 ids exist per calendar day. */
  lemma ConsignmentSuffixBelow1000(clock: Clock)
    requires 0 <= clock.unixNano
    ensures var id := ConsignmentId(clock);
            var n := ParseDecimal(id[13..]).value;
            0 <= n < 1000 && |id| <= 16
  {
    var n := GoRem(clock.unixNano, 1000);
    var d := Decimal(n);
    if 100 <= n {
      assert d == NatToDecimal(n / 10) + [DigitChar(n % 10)];
      assert NatToDecimal(n / 10) == NatToDecimal(n / 100) + [DigitChar((n / 10) % 10)];
    } else if 10 <= n {
      assert d == NatToDecimal(n / 10) + [DigitChar(n % 10)];
    }
  }

  /** Ids carry no uniqueness by construction: two creations on the same day
      whose nanosecond clocks agree modulo 1000 get the same id. */
  lemma ConsignmentIdsCollide(c1: Clock, c2: Clock)
    requires c1.year == c2.year && c1.month == c2.month && c1.day == c2.day
    requires 0 <= c1.unixNano && c2.unixNano == c1.unixNano + 1000
    ensures ConsignmentId(c1) == ConsignmentId(c2)
  {
    var a := c1.unixNano;
    assert a + 1000 == 1000 * (a / 1000 + 1) + a % 1000;
    assert GoRem(a + 1000, 1000) == GoRem(a, 1000);
  }

  // --------------------------------------------------------------- stamping

  const DefaultAddress: string := "banani, gulshan 2, dhaka, bangladesh"
  const StoreName: string := "Default Store"
  const StoreContactPhone: string := "123456789"
  const OrderTypeName: string := "Delivery"
  const OrderTypeId: int := 1

  /** The fields a client supplies when creating an order. */
  datatype Submission = Submission(
    storeId: int, merchantOrderId: string, recipientName: string, recipientPhone: string,
    recipientAddress: string, recipientCity: int, recipientZone: int, recipientArea: int,
    deliveryType: int, itemType: int, instruction: string, itemQuantity: int,
    itemWeight: real, amountToCollect: real, description: string)

  function Submitted(o: Order): Submission {
    Submission(o.storeId, o.merchantOrderId, o.recipientName, o.recipientPhone,
      o.recipientAddress, o.recipientCity, o.recipientZone, o.recipientArea,
      o.deliveryType, o.itemType, o.instruction, o.itemQuantity,
      o.itemWeight, o.amountToCollect, o.description)
  }

  /** Fills in every field the service derives: fees, fixed store metadata,
      zero discounts, identity, timestamp, status and owner. */
  function Stamp(req: Order, userId: int, clock: Clock): (o: Order)
    ensures o.deliveryFee == DeliveryFee(req.itemWeight, req.recipientCity)
    ensures o.deliveryCharge == o.deliveryFee
    ensures o.codFee == o.amountToCollect / 100.0
    ensures o.totalFee == o.deliveryFee + o.codFee
    ensures o.codAmount == o.orderAmount == o.amountToCollect == req.amountToCollect
    ensures o.storeName == StoreName && o.storeContactPhone == StoreContactPhone
    ensures o.orderType == OrderTypeName && o.orderTypeId == OrderTypeId
    ensures o.promoDiscount == 0.0 && o.discount == 0.0
    ensures o.consignmentId == ConsignmentId(clock) && o.createdAt == clock.createdAt
    ensures o.status == Pending && o.userId == userId
    ensures req.recipientAddress != "" ==> Submitted(o) == Submitted(req)
    ensures o.recipientAddress != ""
  {
    var address := if req.recipientAddress == "" then DefaultAddress else req.recipientAddress;
    var fee := DeliveryFee(req.itemWeight, req.recipientCity);
    var codFee := req.amountToCollect * 0.01;
    req.(
      recipientAddress := address,
      deliveryFee := fee,
      deliveryCharge := fee,
      codFee := codFee,
      totalFee := fee + codFee,
      codAmount := req.amountToCollect,
      orderAmount := req.amountToCollect,
      storeName := StoreName,
      storeContactPhone := StoreContactPhone,
      orderType := OrderTypeName,
      orderTypeId := OrderTypeId,
      promoDiscount := 0.0,
      discount := 0.0,
      consignmentId := ConsignmentId(clock),
      createdAt := clock.createdAt,
      status := Pending,
      userId := userId)
  }

  // ------------------------------------------------------------ cache keys

  const KeyRoot: string := "orders:user:"

  /** `fmt.Sprintf("orders:user:%d", userID)`: the prefix creation
      invalidates. */
  function OwnerPrefix(userId: int): string {
    KeyRoot + Decimal(userId)
  }

  /** The creation prefix names its user: what follows `orders:user:`
      parses back to the id. */
  lemma OwnerPrefixNamesUser(userId: int)
    ensures ParseDecimal(OwnerPrefix(userId)[|KeyRoot|..]) == Some(userId)
  {
    DecimalRoundTrip(userId);
    assert OwnerPrefix(userId)[|KeyRoot|..] == Decimal(userId);
  }

  /** `fmt.Sprintf("orders:user:%d:page:%d:limit:%d", userID, page, limit)`. */
  function ListingKey(userId: int, page: int, limit: int): string {
    OwnerPrefix(userId) + ":page:" + Decimal(page) + ":limit:" + Decimal(limit)
  }

  /** `fmt.Sprint("orders:user:%d", userID)`: `Sprint` does not interpret
      verbs, and adds no space after a string operand, so the result is the
      literal text `orders:user:%d` followed by the id. */
  function CancelPrefix(userId: int): (r: string)
    ensures |KeyRoot| + 2 < |r| && StartsWith(r, KeyRoot) && r[|KeyRoot|..|KeyRoot| + 2] == "%d"
    ensures ParseDecimal(r[|KeyRoot| + 2..]) == Some(userId)
  {
    DecimalRoundTrip(userId);
    assert ("orders:user:%d" + Decimal(userId))[|KeyRoot| + 2..] == Decimal(userId);
    "orders:user:%d" + Decimal(userId)
  }

  /** The creation prefix covers every cached page of its owner. */
  lemma OwnerPrefixCoversListings(userId: int, page: int, limit: int)
    ensures StartsWith(ListingKey(userId, page, limit), OwnerPrefix(userId))
  {
    var k := ListingKey(userId, page, limit);
    assert k == OwnerPrefix(userId) + (":page:" + Decimal(page) + ":limit:" + Decimal(limit));
  }

  /** In a page key the owner's creation prefix is followed by a colon, so
      `orders:user:1:` covers user 1's pages only. */
  lemma ListingKeyDelimitsOwner(userId: int, page: int, limit: int)
    ensures var k := ListingKey(userId, page, limit);
            |OwnerPrefix(userId)| < |k| && k[|OwnerPrefix(userId)|] == ':'
  {
    var k := ListingKey(userId, page, limit);
    assert k == OwnerPrefix(userId) + (":page:" + Decimal(page) + ":limit:" + Decimal(limit));
  }

  /** The creation prefix also covers the pages of every user whose id
      extends the owner's digits: `orders:user:1` matches user 12's keys. */
  lemma OwnerPrefixOverreaches(userId: int, digit: nat, page: int, limit: int)
    requires 0 < userId && digit < 10
    ensures StartsWith(ListingKey(10 * userId + digit, page, limit), OwnerPrefix(userId))
  {
    var owner := 10 * userId + digit;
    OwnerPrefixExtends(userId, digit);
    OwnerPrefixCoversListings(owner, page, limit);
    StartsWithTransitive(ListingKey(owner, page, limit), OwnerPrefix(owner), OwnerPrefix(userId));
  }

  /** Appending a digit to a user id extends its creation prefix. */
  lemma OwnerPrefixExtends(userId: int, digit: nat)
    requires 0 < userId && digit < 10
    ensures StartsWith(OwnerPrefix(10 * userId + digit), OwnerPrefix(userId))
  {
    DecimalAppendDigit(userId, digit);
    assert OwnerPrefix(10 * userId + digit) == OwnerPrefix(userId) + [DigitChar(digit)];
  }

  /** The cancellation prefix is a prefix of no listing key whatsoever:
      the listing key has a digit or a minus sign where it has `%`. */
  lemma CancelPrefixMissesListings(userId: int, owner: int, page: int, limit: int)
    ensures !StartsWith(ListingKey(owner, page, limit), CancelPrefix(userId))
  {
    var k := ListingKey(owner, page, limit);
    var p := CancelPrefix(userId);
    assert k[12] == Decimal(owner)[0];
    assert p[12] == '%';
  }

  /** The part of a listing key after the owner's id and its colon. */
  function PageTail(page: int, limit: int): string {
    "page:" + Decimal(page) + ":limit:" + Decimal(limit)
  }

  lemma ListingKeyShape(userId: int, page: int, limit: int)
    ensures ListingKey(userId, page, limit) == KeyRoot + (Decimal(userId) + [':'] + PageTail(page, limit))
  {
  }

  lemma PageTailShape(page: int, limit: int)
    ensures PageTail(page, limit) == "page:" + (Decimal(page) + [':'] + ("limit:" + Decimal(limit)))
  {
  }

  lemma DropCommonPrefix(p: string, x: string, y: string)
    requires p + x == p + y
    ensures x == y
  {
    assert x == (p + x)[|p|..];
    assert y == (p + y)[|p|..];
  }

  /** A colon-free head followed by a colon determines where a key splits. */
  lemma SplitAfterNumber(a: int, x: string, b: int, y: string)
    requires Decimal(a) + [':'] + x == Decimal(b) + [':'] + y
    ensures a == b && x == y
  {
    DecimalHasNo(a, ':');
    DecimalHasNo(b, ':');
    SplitAtSeparator(Decimal(a), x, Decimal(b), y, ':');
    DecimalInjective(a, b);
  }

  /** Distinct pages of distinct owners never share a cache key. */
  lemma ListingKeyInjective(u1: int, p1: int, l1: int, u2: int, p2: int, l2: int)
    requires ListingKey(u1, p1, l1) == ListingKey(u2, p2, l2)
    ensures u1 == u2 && p1 == p2 && l1 == l2
  {
    ListingKeyShape(u1, p1, l1);
    ListingKeyShape(u2, p2, l2);
    DropCommonPrefix(KeyRoot, Decimal(u1) + [':'] + PageTail(p1, l1), Decimal(u2) + [':'] + PageTail(p2, l2));
    SplitAfterNumber(u1, PageTail(p1, l1), u2, PageTail(p2, l2));
    PageTailShape(p1, l1);
    PageTailShape(p2, l2);
    DropCommonPrefix("page:", Decimal(p1) + [':'] + ("limit:" + Decimal(l1)), Decimal(p2) + [':'] + ("limit:" + Decimal(l2)));
    SplitAfterNumber(p1, "limit:" + Decimal(l1), p2, "limit:" + Decimal(l2));
    DropCommonPrefix("limit:", Decimal(l1), Decimal(l2));
    DecimalInjective(l1, l2);
  }

  // ---------------------------------------------------------------- create

  /** `CreateOrder`: the required-field check, then the phone check, then
      stamping and the insert; on success, a best-effort deletion of the
      owner's cached pages whose failure is ignored. */
  function CreateOrder(st: State, req: Order, userId: int, clock: Clock,
                       insertFault: Option<string>, run: Redis.ScanRun): (r: (Result<Order>, State))
    ensures MissingRequired(req) ==> r == (Err(MissingFields), st)
    ensures !MissingRequired(req) && !IsMobileNumber(req.recipientPhone) ==> r == (Err(InvalidPhone), st)
    ensures r.0.Err? ==> r.1 == st
    ensures r.0.Ok? <==>
              && !MissingRequired(req) && IsMobileNumber(req.recipientPhone)
              && Repository.CreateOrder(st.store, Stamp(req, userId, clock), insertFault).0.Pass?
    ensures !MissingRequired(req) && IsMobileNumber(req.recipientPhone)
            && Repository.CreateOrder(st.store, Stamp(req, userId, clock), insertFault).0.Fail? ==>
              r.0 == Err(Repository.CreateOrder(st.store, Stamp(req, userId, clock), insertFault).0.msg)
    ensures r.0.Ok? ==> r.0.value == Stamp(req, userId, clock)
    ensures r.0.Ok? ==> r.1.store.orders == st.store.orders + [r.0.value] && r.1.store.users == st.store.users
    ensures r.0.Ok? ==> r.1.cache.Some? == st.cache.Some?
    ensures r.0.Ok? && st.cache.Some? ==> r.1.cache.value == Redis.DeleteByPrefix(st.cache.value, OwnerPrefix(userId), run).1
  {
    if MissingRequired(req) then (Err(MissingFields), st)
    else
      PhoneMatchesIff(req.recipientPhone);
      if !PhoneMatches(req.recipientPhone) then (Err(InvalidPhone), st)
      else
        var o := Stamp(req, userId, clock);
        var (inserted, store') := Repository.CreateOrder(st.store, o, insertFault);
        if inserted.Fail? then (Err(inserted.msg), st)
        else
          var cache' := match st.cache
            case None => None
            case Some(c) => Some(Redis.DeleteByPrefix(c, OwnerPrefix(userId), run).1);
          (Ok(o), State(store', cache'))
  }

  /** Whether creation succeeds, and what it returns, depends neither on the
      cache's contents nor on how the invalidation goes. */
  lemma CreateIgnoresCacheFaults(st: State, req: Order, userId: int, clock: Clock, insertFault: Option<string>,
                                 run1: Redis.ScanRun, cache2: Option<Redis.Cache>, run2: Redis.ScanRun)
    ensures CreateOrder(st, req, userId, clock, insertFault, run1).0
         == CreateOrder(st.(cache := cache2), req, userId, clock, insertFault, run2).0
  {
  }

  /** A successful creation whose invalidation meets no error leaves none of
      the owner's pages cached, and keeps only keys outside the owner's
      prefix. */
  lemma CreateDropsOwnerPages(st: State, req: Order, userId: int, clock: Clock,
                              insertFault: Option<string>, run: Redis.ScanRun)
    requires st.cache.Some? && Redis.CleanRun(st.cache.value, run)
    requires CreateOrder(st, req, userId, clock, insertFault, run).0.Ok?
    ensures var c' := CreateOrder(st, req, userId, clock, insertFault, run).1.cache.value;
            && (forall k :: k in c' <==> k in st.cache.value && !StartsWith(k, OwnerPrefix(userId)))
            && (forall page, limit :: ListingKey(userId, page, limit) !in c')
  {
    var c := st.cache.value;
    var c' := CreateOrder(st, req, userId, clock, insertFault, run).1.cache.value;
    Redis.DeleteByPrefixExact(c, OwnerPrefix(userId), run);
    forall page, limit
      ensures ListingKey(userId, page, limit) !in c'
    {
      OwnerPrefixCoversListings(userId, page, limit);
    }
  }

  // ------------------------------------------------------------------ list

  /** The decision at the cache read: the cached pair is used when `Get`
      reports an ERROR and its bytes decode. */
  function ServedFromCache(reply: Redis.GetReply): (r: Option<Listing>)
    ensures r.Some? ==> reply.err.Some? && Unmarshal(reply.bytes) == r
    ensures reply.err.None? ==> r.None?
  {
    if reply.err.Some? then Unmarshal(reply.bytes) else None
  }

  /** With the Redis adapter the guard never fires: a failing `Get` returns
      no bytes, and a successful one, even a fresh hit, is ignored. */
  lemma RedisNeverServesFromCache(c: Redis.Cache, key: string, fault: Option<string>)
    ensures ServedFromCache(Redis.Get(c, key, fault)).None?
  {
  }

  /** A healthy cache hit holding a valid listing is discarded. */
  lemma HealthyHitDiscarded(c: Redis.Cache, key: string, l: Listing)
    requires key in c && c[key] == Json(l)
    ensures Redis.Get(c, key, None) == Redis.GetReply(Json(l), None)
    ensures Unmarshal(Redis.Get(c, key, None).bytes) == Some(l)
    ensures ServedFromCache(Redis.Get(c, key, None)) == None
  {
  }

  /** `ListOrders`: normalises page size and number, consults the cache
      under the listing key, falls back to the repository with the
      normalised values, and stores what it read under the same key; a
      failed `Set` is ignored and a store error is returned. */
  function ListOrders(st: State, userId: int, limit: int, page: int,
                      getFault: Option<string>, read: Repository.ReadOutcome, setFault: Option<string>): (r: (Result<Listing>, State))
    ensures r.0 == Repository.ListOrders(st.store, userId, NormaliseLimit(limit), NormalisePage(page), read)
    ensures r.1.store == st.store
    ensures r.0.Err? || st.cache.None? ==> r.1 == st
    ensures r.0.Ok? && st.cache.Some? ==>
              r.1.cache == Some(Redis.Set(st.cache.value, ListingKey(userId, NormalisePage(page), NormaliseLimit(limit)),
                                          PageValue(r.0.value), setFault).1)
  {
    var l := NormaliseLimit(limit);
    var p := NormalisePage(page);
    var key := ListingKey(userId, p, l);
    var cached := match st.cache
      case None => None
      case Some(c) => ServedFromCache(Redis.Get(c, key, getFault));
    match cached
    case Some(hit) =>
      assert false;
      (Ok(hit), st)
    case None =>
      match Repository.ListOrders(st.store, userId, l, p, read)
      case Err(m) => (Err(m), st)
      case Ok(listing) =>
        var cache' := match st.cache
          case None => None
          case Some(c) => Some(Redis.Set(c, key, PageValue(listing), setFault).1);
        (Ok(listing), st.(cache := cache'))
  }

  /** After a successful listing with a healthy cache, the page is cached
      under its key, and reading it back decodes to the listing returned. */
  lemma ListCachesPage(st: State, userId: int, limit: int, page: int, getFault: Option<string>,
                       read: Repository.ReadOutcome)
    requires st.cache.Some?
    requires ListOrders(st, userId, limit, page, getFault, read, None).0.Ok?
    ensures var (r, st') := ListOrders(st, userId, limit, page, getFault, read, None);
            var key := ListingKey(userId, NormalisePage(page), NormaliseLimit(limit));
            && Redis.Get(st'.cache.value, key, None).err.None?
            && Unmarshal(Redis.Get(st'.cache.value, key, None).bytes) == Some(r.value)
  {
    var (r, st') := ListOrders(st, userId, limit, page, getFault, read, None);
    var key := ListingKey(userId, NormalisePage(page), NormaliseLimit(limit));
    Redis.SetThenGet(st.cache.value, key, r.value);
  }

  /** A row iteration that stops early yields a short page reported as a
      success, and that short page is what gets cached. */
  lemma TruncatedPageCached(st: State, userId: int, limit: int, page: int, getFault: Option<string>, kept: nat)
    requires st.cache.Some?
    requires kept < |Repository.ListOrders(st.store, userId, NormaliseLimit(limit), NormalisePage(page), Repository.ReadOk).value.orders|
    ensures var (r, st') := ListOrders(st, userId, limit, page, getFault, Repository.RowsStopped(kept), None);
            var full := ListOrders(st, userId, limit, page, getFault, Repository.ReadOk, None).0.value;
            var key := ListingKey(userId, NormalisePage(page), NormaliseLimit(limit));
            && r.Ok? && |r.value.orders| == kept < |full.orders| && r.value.total == full.total
            && Unmarshal(Redis.Get(st'.cache.value, key, None).bytes) == Some(r.value)
  {
    Repository.StoppedRowsLookComplete(st.store, userId, NormaliseLimit(limit), NormalisePage(page), kept);
    ListCachesPage(st, userId, limit, page, getFault, Repository.RowsStopped(kept));
  }

  // ---------------------------------------------------------------- cancel

  /** `CancelOrder`: the repository's guarded update; on success a
      best-effort deletion under the cancellation prefix, whose failure is
      ignored. */
  function CancelOrder(st: State, consignmentId: string, userId: int,
                       dbFault: Option<string>, run: Redis.ScanRun): (r: (Outcome, State))
    ensures r.0 == Repository.CancelOrder(st.store, consignmentId, userId, dbFault).0
    ensures r.1.store == Repository.CancelOrder(st.store, consignmentId, userId, dbFault).1
    ensures r.0.Fail? ==> r.1 == st
    ensures r.1.cache.Some? == st.cache.Some?
    ensures r.0.Pass? && st.cache.Some? ==> r.1.cache.value == Redis.DeleteByPrefix(st.cache.value, CancelPrefix(userId), run).1
  {
    var (res, store') := Repository.CancelOrder(st.store, consignmentId, userId, dbFault);
    if res.Fail? then (res, st)
    else
      var cache' := match st.cache
        case None => None
        case Some(c) => Some(Redis.DeleteByPrefix(c, CancelPrefix(userId), run).1);
      (Pass, State(store', cache'))
  }

  /** Cancellation invalidates nothing a listing wrote: every cached page,
      of every owner, survives with its value, so the owner's cached pages
      keep showing the order as pending. */
  lemma CancelKeepsCachedPages(st: State, consignmentId: string, userId: int,
                               dbFault: Option<string>, run: Redis.ScanRun)
    requires st.cache.Some?
    ensures var c := st.cache.value;
            var c' := CancelOrder(st, consignmentId, userId, dbFault, run).1.cache.value;
            forall owner, page, limit :: ListingKey(owner, page, limit) in c ==>
              ListingKey(owner, page, limit) in c' && c'[ListingKey(owner, page, limit)] == c[ListingKey(owner, page, limit)]
  {
    var c := st.cache.value;
    var c' := CancelOrder(st, consignmentId, userId, dbFault, run).1.cache.value;
    forall owner, page, limit | ListingKey(owner, page, limit) in c
      ensures ListingKey(owner, page, limit) in c' && c'[ListingKey(owner, page, limit)] == c[ListingKey(owner, page, limit)]
    {
      CancelPrefixMissesListings(userId, owner, page, limit);
    }
  }

  /** Cancelling another user's order fails exactly like cancelling an id
      that does not exist. */
  lemma ForeignCancelIndistinguishable(st: State, consignmentId: string, missingId: string, userId: int,
                                       run: Redis.ScanRun)
    requires forall i :: 0 <= i < |st.store.orders| && st.store.orders[i].consignmentId == consignmentId ==>
               st.store.orders[i].userId != userId
    requires !Repository.HasOrder(st.store, missingId)
    ensures CancelOrder(st, consignmentId, userId, None, run) == CancelOrder(st, missingId, userId, None, run)
    ensures CancelOrder(st, consignmentId, userId, None, run) == (Fail(Repository.NotCancellable), st)
  {
  }

  // ------------------------------------------------------------- scenarios

  lemma {:induction false} CountAppend(orders: seq<Order>, o: Order, userId: int)
    ensures Repository.CountOwned(orders + [o], userId)
         == Repository.CountOwned(orders, userId) + (if o.userId == userId then 1 else 0)
  {
    if |orders| > 0 {
      assert (orders + [o])[1..] == orders[1..] + [o];
      CountAppend(orders[1..], o, userId);
    }
  }

  /** A listing after a successful creation counts the new order, whatever
      was cached before. */
  lemma CreateThenListCounts(st: State, req: Order, userId: int, clock: Clock, run: Redis.ScanRun,
                             limit: int, page: int, getFault: Option<string>)
    requires CreateOrder(st, req, userId, clock, None, run).0.Ok?
    ensures var st' := CreateOrder(st, req, userId, clock, None, run).1;
            ListOrders(st', userId, limit, page, getFault, Repository.ReadOk, None).0.value.total
              == Repository.CountOwned(st.store.orders, userId) + 1
  {
    var o := CreateOrder(st, req, userId, clock, None, run).0.value;
    CountAppend(st.store.orders, o, userId);
  }

  /** Two creations whose ids collide: the second is rejected by the primary
      key and changes neither the store nor the cache. */
  lemma CollidingCreateRejected(st: State, req1: Order, req2: Order, userId: int, c1: Clock, c2: Clock,
                                run1: Redis.ScanRun, run2: Redis.ScanRun)
    requires CreateOrder(st, req1, userId, c1, None, run1).0.Ok?
    requires ConsignmentId(c1) == ConsignmentId(c2)
    requires !MissingRequired(req2) && IsMobileNumber(req2.recipientPhone)
    ensures var st' := CreateOrder(st, req1, userId, c1, None, run1).1;
            CreateOrder(st', req2, userId, c2, None, run2) == (Err(Repository.DuplicateConsignment), st')
  {
    var st' := CreateOrder(st, req1, userId, c1, None, run1).1;
    var o := Stamp(req1, userId, c1);
    assert st'.store.orders[|st.store.orders|] == o;
    assert Repository.HasOrder(st'.store, ConsignmentId(c2));
  }
}

=== FILE: redis.dfy ===
/** The Redis cache adapter: a finite map from keys to byte blobs.

    Every call can fail on the network; such a failure is an explicit
    `fault` argument. A `DELETE`-by-prefix walks the keyspace with `SCAN`;
    the order in which `SCAN` enumerates keys, the point where one `DEL`
    fails and the iterator's own error are given by a `ScanRun`. Entry
    expiry (the TTL passed to `SET`) is not modelled. */
module Redis {
  import opened Wrappers
  import opened Text
  import opened Codec

  type Cache = map<string, Blob>

  /** The error go-redis reports for a key that is not present. */
  const NilReply: string := "redis: nil"

  /** The error `json.Marshal` reports for a value it cannot encode. */
  const UnsupportedValue: string := "json: unsupported value"

  /** The `([]byte, error)` pair `Get` returns. */
  datatype GetReply = GetReply(bytes: Blob, err: Option<string>)

  /** `Cache.Get`: the stored bytes, or an error with no bytes when the
      key is absent or the call fails. */
  function Get(c: Cache, key: string, fault: Option<string>): (r: GetReply)
    ensures r.err.None? <==> fault.None? && key in c
    ensures r.err.None? ==> r.bytes == c[key]
    ensures r.err.Some? ==> r.bytes == Empty
    ensures fault.None? && key !in c ==> r.err == Some(NilReply)
  {
    if fault.Some? then GetReply(Empty, fault)
    else if key in c then GetReply(c[key], None)
    else GetReply(Empty, Some(NilReply))
  }

  /** `Cache.Set`: encodes the value and stores it under the key. An
      encoding failure returns before anything is written, and so does a
      failed `SET`. */
  function Set(c: Cache, key: string, v: Value, fault: Option<string>): (r: (Outcome, Cache))
    ensures r.0.Pass? <==> v.PageValue? && fault.None?
    ensures v.Unencodable? ==> r.0 == Fail(UnsupportedValue)
    ensures r.0.Fail? ==> r.1 == c
    ensures r.0.Pass? ==> r.1.Keys == c.Keys + {key}
    ensures r.0.Pass? ==> forall k :: k in c && k != key ==> r.1[k] == c[k]
  {
    match Marshal(v)
    case None => (Fail(UnsupportedValue), c)
    case Some(data) =>
      if fault.Some? then (Fail(fault.value), c) else (Pass, c[key := data])
  }

  /** After a successful `Set(k, v)`, `Get(k)` returns bytes that decode to
      `v`. */
  lemma SetThenGet(c: Cache, key: string, l: Domain.Listing)
    ensures Set(c, key, PageValue(l), None).0 == Pass
    ensures Get(Set(c, key, PageValue(l), None).1, key, None).err == None
    ensures Unmarshal(Get(Set(c, key, PageValue(l), None).1, key, None).bytes) == Some(l)
  {
  }

  /** `DEL` of the `at`-th key `SCAN` produced fails with `msg`. */
  datatype DelFault = DelFault(at: nat, msg: string)

  /** One walk of the keyspace: the keys `SCAN` enumerates, in its order and
      before its `MATCH` filter (it may repeat keys), the `DEL` that fails
      if any, and the error the iterator ends with if any. */
  datatype ScanRun = ScanRun(keys: seq<string>, delFault: Option<DelFault>, iterErr: Option<string>)

  /** A walk that enumerates every key of the cache and meets no error. */
  predicate CleanRun(c: Cache, run: ScanRun) {
    && run.delFault.None?
    && run.iterErr.None?
    && forall k :: k in c ==> k in run.keys
  }

  /** The loop of `DeleteByPrefix` from the `i`-th enumerated key on. */
  function DeleteFrom(c: Cache, prefix: string, run: ScanRun, i: nat): (r: (Outcome, Cache))
    requires i <= |run.keys|
    ensures r.1.Keys <= c.Keys
    ensures forall k :: k in r.1 ==> r.1[k] == c[k]
    ensures forall k :: k in c && !StartsWith(k, prefix) ==> k in r.1
    ensures forall k :: k in c && k !in run.keys[i..] ==> k in r.1
    ensures r.0.Pass? ==> forall j :: i <= j < |run.keys| && StartsWith(run.keys[j], prefix) ==> run.keys[j] !in r.1
    ensures run.delFault.None? && run.iterErr.None? ==> r.0 == Pass
    ensures run.delFault.None? && run.iterErr.Some? ==> r.0 == Fail(run.iterErr.value)
    decreases |run.keys| - i
  {
    if i == |run.keys| then
      (if run.iterErr.Some? then Fail(run.iterErr.value) else Pass, c)
    else
      var k := run.keys[i];
      if !StartsWith(k, prefix) then DeleteFrom(c, prefix, run, i + 1)
      else if run.delFault.Some? && run.delFault.value.at == i then (Fail(run.delFault.value.msg), c)
      else DeleteFrom(c - {k}, prefix, run, i + 1)
  }

  /** `Cache.DeleteByPrefix`: deletes the enumerated keys that start with
      the prefix, one by one, stopping at the first failing delete; no key
      outside the prefix is touched and no value is altered. */
  function DeleteByPrefix(c: Cache, prefix: string, run: ScanRun): (r: (Outcome, Cache))
    ensures r.1.Keys <= c.Keys
    ensures forall k :: k in r.1 ==> r.1[k] == c[k]
    ensures forall k :: k in c && !StartsWith(k, prefix) ==> k in r.1
    ensures r.0.Pass? ==> forall j :: 0 <= j < |run.keys| && StartsWith(run.keys[j], prefix) ==> run.keys[j] !in r.1
    ensures run.delFault.None? && run.iterErr.Some? ==> r.0 == Fail(run.iterErr.value)
  {
    DeleteFrom(c, prefix, run, 0)
  }

  /** Keys among `keys` that start with `prefix`. */
  function Matching(keys: seq<string>, prefix: string): set<string> {
    set k | k in keys && StartsWith(k, prefix)
  }

  /** A walk without errors over the whole keyspace removes exactly the keys
      that start with the prefix. For instance the prefix `orders:user:1`
      also removes keys of user 12. */
  lemma DeleteByPrefixExact(c: Cache, prefix: string, run: ScanRun)
    requires CleanRun(c, run)
    ensures DeleteByPrefix(c, prefix, run).0 == Pass
    ensures DeleteByPrefix(c, prefix, run).1 == map k | k in c && !StartsWith(k, prefix) :: c[k]
  {
    var r := DeleteByPrefix(c, prefix, run).1;
    forall k | k in c && StartsWith(k, prefix)
      ensures k !in r
    {
      var j :| 0 <= j < |run.keys| && run.keys[j] == k;
    }
  }

  /** The first failing delete ends the walk with its error: exactly the
      matching keys enumerated before it are gone, so later matching keys
      may survive. */
  lemma {:induction false} DeleteStopsAtFailure(c: Cache, prefix: string, run: ScanRun, i: nat)
    requires run.delFault.Some?
    requires i <= run.delFault.value.at < |run.keys|
    requires StartsWith(run.keys[run.delFault.value.at], prefix)
    ensures DeleteFrom(c, prefix, run, i)
         == (Fail(run.delFault.value.msg), c - Matching(run.keys[i..run.delFault.value.at], prefix))
    decreases |run.keys| - i
  {
    var j := run.delFault.value.at;
    if i == j {
      assert Matching(run.keys[i..j], prefix) == {};
      assert c - {} == c;
    } else {
      var k := run.keys[i];
      DeleteStopsAtFailure(if StartsWith(k, prefix) then c - {k} else c, prefix, run, i + 1);
      assert run.keys[i..j] == [k] + run.keys[i + 1..j];
      if StartsWith(k, prefix) {
        assert Matching(run.keys[i..j], prefix) == {k} + Matching(run.keys[i + 1..j], prefix);
        assert c - {k} - Matching(run.keys[i + 1..j], prefix) == c - Matching(run.keys[i..j], prefix);
      } else {
        assert Matching(run.keys[i..j], prefix) == Matching(run.keys[i + 1..j], prefix);
      }
    }
  }
}

=== FILE: repository.dfy ===
/** The Postgres repository, over an in-memory store.

    The `users` table is a sequence of users with unique ids and usernames
    (`id SERIAL PRIMARY KEY`, `username ... UNIQUE`). The `orders` table is
    a sequence of orders in insertion order, keyed by consignment id
    (`consignment_id ... PRIMARY KEY`), whose `user_id` must name a user
    (`REFERENCES users(id)`). A failure of the database itself (connection,
    query or scan error) is an explicit `fault` argument. */
module Repository {
  import opened Wrappers
  import opened Domain

  datatype Store = Store(users: seq<User>, orders: seq<Order>)

  /** The table constraints: unique user ids, unique usernames, unique
      consignment ids. */
  predicate Valid(st: Store) {
    && (forall i, j :: 0 <= i < j < |st.users| ==> st.users[i].id != st.users[j].id)
    && (forall i, j :: 0 <= i < j < |st.users| ==> st.users[i].username != st.users[j].username)
    && (forall i, j :: 0 <= i < j < |st.orders| ==> st.orders[i].consignmentId != st.orders[j].consignmentId)
  }

  predicate HasUser(st: Store, id: int) {
    exists i :: 0 <= i < |st.users| && st.users[i].id == id
  }

  predicate HasOrder(st: Store, consignmentId: string) {
    exists i :: 0 <= i < |st.orders| && st.orders[i].consignmentId == consignmentId
  }

  // ---------------------------------------------------------------- users

  function FirstNamed(users: seq<User>, username: string): (r: Option<User>)
    ensures r.None? <==> forall i :: 0 <= i < |users| ==> users[i].username != username
    ensures r.Some? ==> r.value in users && r.value.username == username
  {
    if |users| == 0 then None
    else if users[0].username == username then Some(users[0])
    else FirstNamed(users[1..], username)
  }

  /** `FindUserByUsername`: no matching row is not an error but an absent
      user; any other database error is returned as is. */
  function FindUserByUsername(st: Store, username: string, fault: Option<string>): (r: Result<Option<User>>)
    ensures fault.Some? ==> r == Err(fault.value)
    ensures r == Ok(None) <==> fault.None? && forall i :: 0 <= i < |st.users| ==> st.users[i].username != username
    ensures r.Ok? && r.value.Some? ==> r.value.value in st.users && r.value.value.username == username
    ensures fault.None? ==> r.Ok?
  {
    if fault.Some? then Err(fault.value) else Ok(FirstNamed(st.users, username))
  }

  /** With unique usernames, the user found is THE user of that name. */
  lemma FindUserUnique(st: Store, username: string, u: User)
    requires Valid(st)
    requires u in st.users && u.username == username
    ensures FindUserByUsername(st, username, None) == Ok(Some(u))
  {
  }

  // --------------------------------------------------------------- insert

  const DuplicateConsignment: string := "pq: duplicate key value violates unique constraint \"orders_pkey\""
  const UnknownOwner: string := "pq: insert or update on table \"orders\" violates foreign key constraint \"orders_user_id_fkey\""

  /** `CreateOrder`: inserts every field of the order as given. The primary
      key rejects a consignment id already present, and the foreign key an
      owner that is not a user; a rejected insert writes nothing. */
  function CreateOrder(st: Store, o: Order, fault: Option<string>): (r: (Outcome, Store))
    ensures r.0.Pass? <==> fault.None? && !HasOrder(st, o.consignmentId) && HasUser(st, o.userId)
    ensures r.0.Pass? ==> r.1.orders == st.orders + [o] && r.1.users == st.users
    ensures r.0.Fail? ==> r.1 == st
    ensures fault.None? && HasOrder(st, o.consignmentId) ==> r.0 == Fail(DuplicateConsignment)
    ensures fault.None? && !HasOrder(st, o.consignmentId) && !HasUser(st, o.userId) ==> r.0 == Fail(UnknownOwner)
  {
    if fault.Some? then (Fail(fault.value), st)
    else if HasOrder(st, o.consignmentId) then (Fail(DuplicateConsignment), st)
    else if !HasUser(st, o.userId) then (Fail(UnknownOwner), st)
    else (Pass, st.(orders := st.orders + [o]))
  }

  /** Inserting keeps the table constraints. */
  lemma CreateOrderKeepsValid(st: Store, o: Order, fault: Option<string>)
    requires Valid(st)
    ensures Valid(CreateOrder(st, o, fault).1)
  {
    var st' := CreateOrder(st, o, fault).1;
    if CreateOrder(st, o, fault).0.Pass? {
      forall i, j | 0 <= i < j < |st'.orders|
        ensures st'.orders[i].consignmentId != st'.orders[j].consignmentId
      {
        if j == |st.orders| {
          assert st'.orders[i] == st.orders[i];
        }
      }
    }
  }

  // --------------------------------------------------------------- listing

  /** The owner's orders, in table order (`WHERE user_id = $1`). */
  function OwnedBy(orders: seq<Order>, userId: int): (r: seq<Order>)
    ensures |r| <= |orders|
    ensures forall o :: o in r <==> o in orders && o.userId == userId
  {
    if |orders| == 0 then []
    else if orders[0].userId == userId then [orders[0]] + OwnedBy(orders[1..], userId)
    else OwnedBy(orders[1..], userId)
  }

  /** `SELECT COUNT(*) FROM orders WHERE user_id = $1`. */
  function CountOwned(orders: seq<Order>, userId: int): (n: nat)
    ensures n <= |orders|
    ensures n == 0 <==> forall i :: 0 <= i < |orders| ==> orders[i].userId != userId
  {
    if |orders| == 0 then 0
    else (if orders[0].userId == userId then 1 else 0) + CountOwned(orders[1..], userId)
  }

  /** The count query and the row query agree on how many orders a user
      owns. */
  lemma {:induction false} CountMatchesRows(orders: seq<Order>, userId: int)
    ensures CountOwned(orders, userId) == |OwnedBy(orders, userId)|
  {
    if |orders| > 0 {
      CountMatchesRows(orders[1..], userId);
    }
  }

  predicate NewestFirst(s: seq<Order>) {
    forall i, j :: 0 <= i < j < |s| ==> s[i].createdAt >= s[j].createdAt
  }

  /** Places `o` before the first order that is not newer than it. */
  function InsertByAge(o: Order, s: seq<Order>): (r: seq<Order>)
    ensures |r| == |s| + 1
    ensures r[0] == o || (0 < |s| && r[0] == s[0])
  {
    if |s| == 0 || o.createdAt >= s[0].createdAt then [o] + s
    else [s[0]] + InsertByAge(o, s[1..])
  }

  lemma {:induction false} InsertByAgeSorted(o: Order, s: seq<Order>)
    requires NewestFirst(s)
    ensures NewestFirst(InsertByAge(o, s))
    ensures multiset(InsertByAge(o, s)) == multiset(s) + multiset{o}
  {
    if |s| == 0 || o.createdAt >= s[0].createdAt {
    } else {
      var t := InsertByAge(o, s[1..]);
      InsertByAgeSorted(o, s[1..]);
      assert s == [s[0]] + s[1..];
      assert s[0].createdAt >= t[0].createdAt;
    }
  }

  /** `ORDER BY created_at DESC`. SQL leaves the order of equal timestamps
      unspecified, and each page is a query of its own; this arrangement
      settles ties one way, the same way for every page. When no two of a
      user's orders share a timestamp there is only one newest-first
      arrangement (`ArrangementForced`). */
  function SortNewestFirst(s: seq<Order>): (r: seq<Order>)
    ensures |r| == |s|
  {
    if |s| == 0 then [] else InsertByAge(s[0], SortNewestFirst(s[1..]))
  }

  /** The arrangement is newest first and holds exactly the rows it was
      given. */
  lemma {:induction false} SortNewestFirstCorrect(s: seq<Order>)
    ensures NewestFirst(SortNewestFirst(s))
    ensures multiset(SortNewestFirst(s)) == multiset(s)
  {
    if |s| > 0 {
      SortNewestFirstCorrect(s[1..]);
      InsertByAgeSorted(s[0], SortNewestFirst(s[1..]));
      assert s == [s[0]] + s[1..];
    }
  }

  /** `LIMIT n OFFSET k` over an arranged result. */
  function Window(s: seq<Order>, offset: nat, n: nat): (r: seq<Order>)
    ensures |r| == if offset >= |s| then 0 else if offset + n <= |s| then n else |s| - offset
    ensures forall i :: 0 <= i < |r| ==> r[i] == s[offset + i]
    ensures forall o :: o in r ==> o in s
    ensures NewestFirst(s) ==> NewestFirst(r)
  {
    if offset >= |s| then [] else s[offset..if offset + n <= |s| then offset + n else |s|]
  }

  /** The user's orders, newest first: what the paginated query walks. */
  function Arranged(st: Store, userId: int): (r: seq<Order>)
    ensures |r| == CountOwned(st.orders, userId)
    ensures NewestFirst(r)
    ensures forall o :: o in r ==> o in st.orders && o.userId == userId
    ensures multiset(r) == multiset(OwnedBy(st.orders, userId))
    ensures forall o :: o in st.orders && o.userId == userId ==> o in r
  {
    var owned := OwnedBy(st.orders, userId);
    CountMatchesRows(st.orders, userId);
    SortNewestFirstCorrect(owned);
    var r := SortNewestFirst(owned);
    assert forall o :: o in r ==> o in owned by {
      forall o | o in r ensures o in owned {
        assert o in multiset(r);
      }
    }
    assert forall o :: o in owned ==> o in r by {
      forall o | o in owned ensures o in r {
        assert o in multiset(owned);
      }
    }
    r
  }

  /** No two distinct orders of `s` share a timestamp. */
  predicate TimesIdentify(s: seq<Order>) {
    forall o1, o2 :: o1 in s && o2 in s && o1.createdAt == o2.createdAt ==> o1 == o2
  }

  /** Two newest-first arrangements of the same orders coincide when the
      timestamps tell the orders apart. */
  lemma {:induction false} NewestFirstUnique(a: seq<Order>, b: seq<Order>)
    requires NewestFirst(a) && NewestFirst(b)
    requires multiset(a) == multiset(b)
    requires TimesIdentify(a)
    ensures a == b
  {
    assert |a| == |multiset(a)| == |multiset(b)| == |b|;
    if |a| > 0 {
      SameNewest(a, b);
      SameTails(a, b);
      TailTimesIdentify(a);
      NewestFirstUnique(a[1..], b[1..]);
      assert forall k :: 0 < k < |a| ==> a[k] == a[1..][k - 1];
    }
  }

  /** Removing the same first order from equal multisets leaves equal
      multisets. */
  lemma SameTails(a: seq<Order>, b: seq<Order>)
    requires 0 < |a| && 0 < |b| && a[0] == b[0]
    requires multiset(a) == multiset(b)
    ensures multiset(a[1..]) == multiset(b[1..])
  {
    assert a == [a[0]] + a[1..];
    assert b == [b[0]] + b[1..];
    assert multiset(a[1..]) == multiset(a) - multiset{a[0]};
    assert multiset(b[1..]) == multiset(b) - multiset{b[0]};
  }

  lemma TailTimesIdentify(a: seq<Order>)
    requires 0 < |a| && TimesIdentify(a) && NewestFirst(a)
    ensures TimesIdentify(a[1..]) && NewestFirst(a[1..])
  {
    assert forall o :: o in a[1..] ==> o in a;
  }

  /** The newest of the same orders is the same order when the timestamps
      tell the orders apart. */
  lemma SameNewest(a: seq<Order>, b: seq<Order>)
    requires NewestFirst(a) && NewestFirst(b)
    requires multiset(a) == multiset(b)
    requires TimesIdentify(a)
    requires 0 < |a| && 0 < |b|
    ensures a[0] == b[0]
  {
    assert a[0] in multiset(b) && b[0] in multiset(a);
    var k :| 0 <= k < |b| && b[k] == a[0];
    var m :| 0 <= m < |a| && a[m] == b[0];
    assert b[0].createdAt >= b[k].createdAt;
    assert a[0].createdAt >= a[m].createdAt;
  }

  /** When no two of a user's orders share a timestamp, every newest-first
      arrangement of them is this model's arrangement, so independent page
      queries agree whatever order the database picks. */
  lemma ArrangementForced(st: Store, userId: int, rows: seq<Order>)
    requires TimesIdentify(OwnedBy(st.orders, userId))
    requires NewestFirst(rows) && multiset(rows) == multiset(OwnedBy(st.orders, userId))
    ensures rows == Arranged(st, userId)
  {
    var a := Arranged(st, userId);
    forall o | o in a ensures o in OwnedBy(st.orders, userId) {
      assert o in multiset(a);
    }
    NewestFirstUnique(a, rows);
  }

  /** How the listing's queries fare. */
  datatype ReadOutcome =
    | ReadOk
    /** The count, the select or a row scan reports an error, which is
        returned. */
    | ReadError(msg: string)
    /** Row iteration ends after `kept` rows on an error the loop never
        looks at: `rows.Err()` is not consulted, so the rows read so far are
        returned as if complete. */
    | RowsStopped(kept: nat)

  /** `ListOrders`: normalises page size and page number, skips
      `(page - 1) * limit` of the user's orders newest first, returns at
      most `limit` of them, and reports how many the user has in all. */
  function ListOrders(st: Store, userId: int, limit: int, page: int, read: ReadOutcome): (r: Result<Listing>)
    ensures r.Ok? <==> !read.ReadError?
    ensures read.ReadError? ==> r == Err(read.msg)
    ensures r.Ok? ==> r.value.total == CountOwned(st.orders, userId)
    ensures r.Ok? ==> |r.value.orders| <= NormaliseLimit(limit)
    ensures r.Ok? ==> forall o :: o in r.value.orders ==> o in st.orders && o.userId == userId
    ensures r.Ok? ==> NewestFirst(r.value.orders)
  {
    var l := NormaliseLimit(limit);
    var p := NormalisePage(page);
    NonNegativeProduct(p - 1, l);
    var offset := (p - 1) * l;
    var rows := Window(Arranged(st, userId), offset, l);
    match read
    case ReadError(m) => Err(m)
    case ReadOk => Ok(Listing(rows, CountOwned(st.orders, userId)))
    case RowsStopped(k) =>
      Ok(Listing(if k < |rows| then rows[..k] else rows, CountOwned(st.orders, userId)))
  }

  /** An iteration that stops early still succeeds: the page is a prefix
      of the complete page, cut to the rows read, and the total is the
      full count, so a short page looks like a complete one. */
  lemma StoppedRowsLookComplete(st: Store, userId: int, limit: int, page: int, kept: nat)
    ensures var full := ListOrders(st, userId, limit, page, ReadOk).value;
            var cut := ListOrders(st, userId, limit, page, RowsStopped(kept));
            && cut.Ok?
            && cut.value.total == full.total
            && |cut.value.orders| == (if kept < |full.orders| then kept else |full.orders|)
            && cut.value.orders == full.orders[..|cut.value.orders|]
  {
  }

  /** Every page is the slice of the newest-first arrangement that starts
      at `(page - 1) * limit`, so its size is `limit` until the orders run
      out: with 25 orders and a page size of 10, pages 1, 2, 3 and 4 hold
      10, 10, 5 and 0 orders. */
  lemma ListingIsSlice(st: Store, userId: int, limit: int, page: int)
    ensures var r := ListOrders(st, userId, limit, page, ReadOk);
            var l := NormaliseLimit(limit);
            var offset := (NormalisePage(page) - 1) * l;
            var total := CountOwned(st.orders, userId);
            && r.Ok? && r.value.total == total && 0 <= offset
            && |r.value.orders| == (if offset >= total then 0 else if offset + l <= total then l else total - offset)
            && forall i :: 0 <= i < |r.value.orders| ==>
                 offset + i < |Arranged(st, userId)| && r.value.orders[i] == Arranged(st, userId)[offset + i]
  {
    CompletePage(st, userId, limit, page);
    var offset := (NormalisePage(page) - 1) * NormaliseLimit(limit);
    WindowOfArranged(st, userId, offset, NormaliseLimit(limit));
  }

  /** A window of the arrangement, measured against the user's count. */
  lemma WindowOfArranged(st: Store, userId: int, offset: nat, l: nat)
    ensures var w := Window(Arranged(st, userId), offset, l);
            var total := CountOwned(st.orders, userId);
            && |w| == (if offset >= total then 0 else if offset + l <= total then l else total - offset)
            && forall i :: 0 <= i < |w| ==> offset + i < |Arranged(st, userId)| && w[i] == Arranged(st, userId)[offset + i]
  {
  }

  /** A read that goes through is the window of the arrangement, with the
      user's count as total. */
  lemma CompletePage(st: Store, userId: int, limit: int, page: int)
    ensures var offset := (NormalisePage(page) - 1) * NormaliseLimit(limit);
            && 0 <= offset
            && ListOrders(st, userId, limit, page, ReadOk)
               == Ok(Listing(Window(Arranged(st, userId), offset, NormaliseLimit(limit)), CountOwned(st.orders, userId)))
  {
    var l := NormaliseLimit(limit);
    var p := NormalisePage(page);
    NonNegativeProduct(p - 1, l);
  }

  lemma NonNegativeProduct(a: int, b: int)
    requires 0 <= a && 0 <= b
    ensures 0 <= a * b
  {
  }

  /** Every order of the user appears on some page: the `i`-th newest is on
      page `i / limit + 1`, at position `i % limit`. */
  lemma EveryOrderOnItsPage(st: Store, userId: int, limit: int, i: nat)
    requires 1 <= limit
    requires i < |Arranged(st, userId)|
    ensures var r := ListOrders(st, userId, limit, i / limit + 1, ReadOk).value;
            i % limit < |r.orders| && r.orders[i % limit] == Arranged(st, userId)[i]
  {
    var q, m := i / limit, i % limit;
    DivMod(i, limit);
    NonNegativeProduct(q, limit);
    var offset := q * limit;
    assert offset + m == i;
    PositionOnPage(st, userId, limit, q, offset, m);
  }

  /** Position `m` of page `q + 1`, which starts at `offset`, holds the
      order at `offset + m`. */
  lemma PositionOnPage(st: Store, userId: int, limit: int, q: nat, offset: nat, m: nat)
    requires 1 <= limit && m < limit && offset == q * limit
    requires offset + m < |Arranged(st, userId)|
    ensures var r := ListOrders(st, userId, limit, q + 1, ReadOk).value;
            m < |r.orders| && r.orders[m] == Arranged(st, userId)[offset + m]
  {
    OffsetOfPage(q, limit);
    CompletePage(st, userId, limit, q + 1);
    var w := Window(Arranged(st, userId), offset, limit);
    assert ListOrders(st, userId, limit, q + 1, ReadOk).value.orders == w;
    assert m < |w| && w[m] == Arranged(st, userId)[offset + m];
  }

  /** Page `q + 1` starts at offset `q * limit`. */
  lemma OffsetOfPage(q: nat, limit: int)
    requires 1 <= limit
    ensures (NormalisePage(q + 1) - 1) * NormaliseLimit(limit) == q * limit
  {
  }

  lemma DivMod(i: nat, d: int)
    requires 1 <= d
    ensures (i / d) * d + i % d == i && 0 <= i % d < d && 0 <= i / d
  {
  }

  // ---------------------------------------------------------------- cancel

  const NotCancellable: string := "order not found, unauthorized, or cannot cancel"

  /** The row the conditional update targets: right id, right owner, still
      pending. */
  predicate Cancellable(o: Order, consignmentId: string, userId: int) {
    o.consignmentId == consignmentId && o.userId == userId && o.status == Pending
  }

  predicate AnyCancellable(orders: seq<Order>, consignmentId: string, userId: int) {
    exists i :: 0 <= i < |orders| && Cancellable(orders[i], consignmentId, userId)
  }

  /** `UPDATE orders SET status = 'Cancelled' WHERE consignment_id = $1 AND
      user_id = $2 AND status = 'Pending'`: when no row matches, one error
      covers a wrong id, a foreign owner and a non-pending status alike. */
  function CancelOrder(st: Store, consignmentId: string, userId: int, fault: Option<string>): (r: (Outcome, Store))
    ensures fault.Some? ==> r == (Fail(fault.value), st)
    ensures fault.None? && !AnyCancellable(st.orders, consignmentId, userId) ==> r == (Fail(NotCancellable), st)
    ensures r.0.Pass? <==> fault.None? && AnyCancellable(st.orders, consignmentId, userId)
    ensures r.1.users == st.users && |r.1.orders| == |st.orders|
    ensures forall i :: 0 <= i < |st.orders| && !Cancellable(st.orders[i], consignmentId, userId) ==> r.1.orders[i] == st.orders[i]
    ensures r.0.Pass? ==> forall i :: 0 <= i < |st.orders| && Cancellable(st.orders[i], consignmentId, userId) ==> r.1.orders[i] == st.orders[i].(status := Cancelled)
  {
    if fault.Some? then (Fail(fault.value), st)
    else if !AnyCancellable(st.orders, consignmentId, userId) then (Fail(NotCancellable), st)
    else
      var updated := seq(|st.orders|, i requires 0 <= i < |st.orders| =>
        if Cancellable(st.orders[i], consignmentId, userId) then st.orders[i].(status := Cancelled) else st.orders[i]);
      (Pass, st.(orders := updated))
  }

  /** A cancelled order cannot be cancelled again: the second attempt gets
      the same error as an unknown id. */
  lemma CancelTwiceFails(st: Store, consignmentId: string, userId: int)
    requires CancelOrder(st, consignmentId, userId, None).0.Pass?
    ensures CancelOrder(CancelOrder(st, consignmentId, userId, None).1, consignmentId, userId, None)
         == (Fail(NotCancellable), CancelOrder(st, consignmentId, userId, None).1)
  {
    var st' := CancelOrder(st, consignmentId, userId, None).1;
    forall i | 0 <= i < |st'.orders|
      ensures !Cancellable(st'.orders[i], consignmentId, userId)
    {
      if Cancellable(st.orders[i], consignmentId, userId) {
        assert st'.orders[i].status == Cancelled;
      }
    }
  }

  /** Cancelling keeps the table constraints. */
  lemma CancelOrderKeepsValid(st: Store, consignmentId: string, userId: int, fault: Option<string>)
    requires Valid(st)
    ensures Valid(CancelOrder(st, consignmentId, userId, fault).1)
  {
    var st' := CancelOrder(st, consignmentId, userId, fault).1;
    forall i | 0 <= i < |st.orders|
      ensures st'.orders[i].consignmentId == st.orders[i].consignmentId
    {
      if Cancellable(st.orders[i], consignmentId, userId) && CancelOrder(st, consignmentId, userId, fault).0.Pass? {
      }
    }
  }
}

=== FILE: text.dfy ===
/** The handful of Go string operations the service relies on: decimal
    rendering as done by the `%d` verb, prefix tests, and
    `strings.TrimPrefix`. Strings are sequences of characters. */
module Text {
  import opened Wrappers

  predicate IsDigit(c: char) {
    '0' <= c <= '9'
  }

  predicate AllDigits(s: string) {
    forall i :: 0 <= i < |s| ==> IsDigit(s[i])
  }

  /** `strings.HasPrefix(s, prefix)`. */
  predicate StartsWith(s: string, prefix: string) {
    |prefix| <= |s| && s[..|prefix|] == prefix
  }

  function DigitChar(d: nat): (c: char)
    requires d < 10
    ensures IsDigit(c)
  {
    "0123456789"[d]
  }

  function DigitValue(c: char): (d: nat)
    requires IsDigit(c)
    ensures d < 10
  {
    (c as int - '0' as int) as nat
  }

  lemma DigitRoundTrip(d: nat)
    requires d < 10
    ensures DigitValue(DigitChar(d)) == d
  {
  }

  /** Base-10 digits of a natural number, most significant first, no
      leading zeros. */
  function NatToDecimal(n: nat): (r: string)
    ensures 0 < |r|
    ensures AllDigits(r)
    ensures n < 10 <==> |r| == 1
    decreases n
  {
    if n < 10 then [DigitChar(n)] else NatToDecimal(n / 10) + [DigitChar(n % 10)]
  }

  /** What Go's `%d` verb produces for an integer: its decimal digits,
      preceded by `-` when it is negative. */
  function Decimal(n: int): (r: string)
    ensures 0 < |r|
    ensures IsDigit(r[0]) || r[0] == '-'
    ensures forall i :: 0 < i < |r| ==> IsDigit(r[i])
    ensures r[0] == '-' <==> n < 0
  {
    if n < 0 then "-" + NatToDecimal(-n) else NatToDecimal(n)
  }

  /** Value of a non-empty string of digits, read most significant first. */
  function DigitsValue(s: string): nat
    requires AllDigits(s)
    decreases |s|
  {
    if |s| == 0 then 0 else DigitsValue(s[..|s| - 1]) * 10 + DigitValue(s[|s| - 1])
  }

  /** Reads back what `Decimal` writes: an optional `-` then digits. */
  function ParseDecimal(s: string): Option<int> {
    if 0 < |s| && s[0] == '-' then
      if 1 < |s| && AllDigits(s[1..]) then var v: int := DigitsValue(s[1..]); Some(-v) else None
    else if 0 < |s| && AllDigits(s) then Some(DigitsValue(s))
    else None
  }

  lemma {:induction false} NatToDecimalValue(n: nat)
    ensures DigitsValue(NatToDecimal(n)) == n
    decreases n
  {
    var r := NatToDecimal(n);
    if n < 10 {
      DigitRoundTrip(n);
    } else {
      NatToDecimalValue(n / 10);
      assert r[..|r| - 1] == NatToDecimal(n / 10);
      DigitRoundTrip(n % 10);
    }
  }

  /** Decimal rendering is a faithful encoding: parsing recovers the number. */
  lemma {:induction false} DecimalRoundTrip(n: int)
    ensures ParseDecimal(Decimal(n)) == Some(n)
  {
    if n < 0 {
      var d := NatToDecimal(-n);
      assert Decimal(n)[1..] == d;
      NatToDecimalValue(-n);
    } else {
      NatToDecimalValue(n);
    }
  }

  /** Distinct integers are rendered as distinct strings. */
  lemma DecimalInjective(a: int, b: int)
    requires Decimal(a) == Decimal(b)
    ensures a == b
  {
    DecimalRoundTrip(a);
    DecimalRoundTrip(b);
  }

  /** Appending a digit to a positive number's rendering renders ten times
      it plus that digit: the rendering of `n` is a prefix of the
      renderings of `10n .. 10n + 9`. */
  lemma DecimalAppendDigit(n: int, d: nat)
    requires 0 < n && d < 10
    ensures Decimal(10 * n + d) == Decimal(n) + [DigitChar(d)]
  {
    assert (10 * n + d) / 10 == n;
    assert (10 * n + d) % 10 == d;
  }

  /** `strings.TrimPrefix(s, prefix)`: drops one leading `prefix`, or
      returns `s` unchanged when it does not start with it. */
  function TrimPrefix(s: string, prefix: string): (r: string)
    ensures StartsWith(s, prefix) ==> prefix + r == s
    ensures !StartsWith(s, prefix) ==> r == s
  {
    if StartsWith(s, prefix) then s[|prefix|..] else s
  }

  /** A prefix of a prefix is a prefix. */
  lemma StartsWithTransitive(s: string, p: string, q: string)
    requires StartsWith(s, p) && StartsWith(p, q)
    ensures StartsWith(s, q)
  {
    assert s[..|q|] == s[..|p|][..|q|];
  }

  /** Trimming undoes prepending, and removes the prefix only once. */
  lemma TrimPrefixOfConcat(prefix: string, t: string)
    ensures TrimPrefix(prefix + t, prefix) == t
  {
    assert (prefix + t)[..|prefix|] == prefix;
    assert (prefix + t)[|prefix|..] == t;
  }

  /** Two strings that both start with their own colon-free head followed by
      `sep` split at the same place: the heads are equal and so are the
      tails. */
  lemma {:induction false} SplitAtSeparator(a: string, x: string, b: string, y: string, sep: char)
    requires sep !in a && sep !in b
    requires a + [sep] + x == b + [sep] + y
    ensures a == b && x == y
  {
    var s := a + [sep] + x;
    if |a| != |b| {
      ConcatIndex(a, x, sep);
      ConcatIndex(b, y, sep);
      assert false;
    }
    assert a == s[..|a|] == b;
    assert x == s[|a| + 1..] == y;
  }

  lemma ConcatIndex(a: string, x: string, sep: char)
    ensures (a + [sep] + x)[|a|] == sep
    ensures forall i :: 0 <= i < |a| ==> (a + [sep] + x)[i] == a[i]
  {
  }

  lemma DecimalHasNo(n: int, c: char)
    requires !IsDigit(c) && c != '-'
    ensures c !in Decimal(n)
  {
  }
}

=== FILE: wrappers.dfy ===
/** Failure-carrying results shared by every layer of the order service.
    Go functions return `(value, error)` pairs; an `error` is modelled by
    its message, which is all the callers (and the tests) ever inspect. */
module Wrappers {

  datatype Option<+T> = None | Some(value: T)

  /** A value or the message of the Go `error` that replaced it. */
  datatype Result<+T> = Ok(value: T) | Err(msg: string)

  /** An error-only return (`func ... error`): nil is `Pass`. */
  datatype Outcome = Pass | Fail(msg: string)
}
